=== FILE: README.md ===
# webhook2rss ingestion core in Dafny

webhook2rss accepts arbitrary webhook payloads on `/webhook/<feed_id>`. A per-feed
parser (`parse_<feed_id>`) turns each payload into feed items. Every item is stamped
with:

- a publication time;
- a guid derived from the time and the title;
- a test flag;
- the archived payload;
- a fingerprint of the payload's key structure.

Each item is then inserted into an SQLite `events` table. That table keeps only the
`MAX_ITEMS` newest rows per feed. `/<feed_id>.atom` serves those rows as an Atom feed.
Before it does, `get_feed` adds any feed defined in the YAML definitions file but
missing from the `feeds` table.

This project models that pipeline as pure functions over immutable values:

| module | file | what it models |
|---|---|---|
| `Wrappers` | `base.dfy` | `Option` and `Result` |
| `Exceptions` | `base.dfy` | the Python exceptions the code raises, with their messages |
| `Text` | `text.dfy` | feed ids and timestamps as text; text order (SQLite's BINARY collation on ISO timestamps), prefixes, substrings |
| `JsonValues` | `json.dfy` | JSON payloads; `structure_only` as `Skeleton` |
| `Normalizer` | `normalizer.dfy` | `parse_handler`: `make_id`, `hash_structure`, `get_parser`, the stamping loop |
| `Events` | `events.dfy` | the `events` row, the `ORDER BY event_pub_date DESC` order, `LIMIT` |
| `EventStore` | `store.dfy` | the `events` table: `add_event` (insert, then prune) and `get_events` |
| `RetentionExample` | `store.dfy` | a worked instance: three inserts with `MAX_ITEMS` = 2 |
| `Catalog` | `catalog.dfy` | the `feeds` table: `add_feed`, `get_feed` and its reconciliation |
| `Atom` | `atom.dfy` | the document `atom_feed` builds, as a record rather than XML |
| `Webhook` | `webhook.dfy` | the `/webhook/<feed_id>` body: parse, then one `add_event` per item |

Modelling decisions:

- **Library calls are parameters.** SHA-256 (as a hex digest), `json.dumps` and the
  canonical `json.dumps(..., sort_keys=True, separators=(",", ":"))` are fields of
  `Normalizer.Oracles`.
- **Clocks are parameters.** `datetime.now()` becomes `clock(i)` for the `i`-th
  stamped item, and `clock(k)` for the row `create_one` writes for feed `k`.
- **The YAML file is a map.** The definitions file is a `Catalog.Config`, and a key
  whose entry is null maps to `None`.
- **The parser module is a map.** It becomes a `Normalizer.Registry` from attribute
  name to parser function.
- **The `events` table is a sequence of rows in insertion order**, plus the next
  AUTOINCREMENT id. Ids start at 1 and are never reused.
- **`MAX_ITEMS` is a Python `int` with SQLite `LIMIT` semantics.** A negative
  value means no bound, and 0 keeps nothing, not even the row just inserted. It is
  bound as a statement parameter, so a value outside SQLite's 64-bit INTEGER range
  makes the DELETE of `add_event` and the SELECT of `get_events` raise OverflowError.
- **Row order has a tie-break.** `ORDER BY event_pub_date DESC` names no tie-break,
  so the model orders rows by (pub_date, event_id), newest first (`Events.Older`).
  The retention sub-select and `get_events` use the same order. Timestamps compare as
  text, by code point. This matches SQLite's byte comparison of UTF-8.
- **`pub_date` is read once per item.** The stamping loop reads the clock for every
  item (webhook2rss.py:265). Two items of one payload can therefore carry different
  timestamps.
- **The `events` columns are the INSERT's.** The model's row has the columns the
  INSERT at webhook2rss.py:120 writes. The DDL text at webhook2rss.py:60-70 is not
  modelled (see "Left out").

## Model

| member | source | states |
|---|---|---|
| JsonValues.Skeleton | webhook2rss.py:239-245 | a mapping keeps exactly its key set, every other value (lists included) becomes `""`, and the result is a skeleton with the same key shape as its input |
| JsonValues.SkeletonIdempotent | webhook2rss.py:239-245 | applying `structure_only` twice gives the same skeleton as applying it once |
| JsonValues.EqualSkeletonsSameShape | webhook2rss.py:239-245 | payloads with equal skeletons have the same nested key shape |
| JsonValues.SameShapeEqualSkeletons | webhook2rss.py:239-245 | payloads with the same nested key shape have equal skeletons, whatever their values |
| JsonValues.SkeletonEqualIffSameShape | webhook2rss.py:239-245 | skeletons are equal if and only if the key shapes are the same |
| Text.Prefix | webhook2rss.py:237 | `[:24]` gives min(24, length) characters, and they are a prefix of the digest |
| Normalizer.MakeId | webhook2rss.py:235-237 | the guid is a prefix of the SHA-256 hex digest of `"<timestamp>-<title>"`, exactly 24 characters when the digest has at least 24 |
| Normalizer.IdSourceInjective | webhook2rss.py:235-237 | at one timestamp, different titles give different hashed text |
| Normalizer.HashStructure | webhook2rss.py:247-249 | the fingerprint is a prefix of the SHA-256 hex digest of the canonical dump, at most 24 characters and exactly 24 when the digest has at least 24 |
| Normalizer.SameShapeSameFingerprint | webhook2rss.py:247-261 | payloads of the same key shape get the same `msg_hash` |
| Normalizer.ParserName | webhook2rss.py:251-253 | the attribute looked up is `parse_` followed by the feed id, which can be read back from it |
| Normalizer.ParserNameInjective | webhook2rss.py:251-253 | different feed ids look up different parser names |
| Normalizer.NoParserMessage | webhook2rss.py:257 | the ValueError text names the feed id |
| Normalizer.Stamp | webhook2rss.py:264-269 | stamping an item succeeds exactly when it has a title and the payload is a mapping; a missing title is a KeyError("title"), and otherwise a payload that is not a mapping raises AttributeError |
| Normalizer.StampAll | webhook2rss.py:264-270 | the loop succeeds exactly when every item has a title (and the payload is a mapping); a failure is KeyError("title") for a mapping payload or a first item without a title, and AttributeError otherwise; each output item carries its own clock reading, guid, test flag, archived payload and the shared fingerprint |
| Normalizer.ParseHandler | webhook2rss.py:251-270 | no `parse_<feed_id>` gives ValueError; a parser that raises gives its exception as `ParserRaised`; a failure of the stamping loop is KeyError("title") or, for a payload that is not a mapping, AttributeError; on success there is one stamped item per parser item, in order, each as `StampedFrom` describes; success exactly when the parser succeeds and every item has a title |
| Normalizer.UnknownFeedFails | webhook2rss.py:251-257 | with no parser the call fails with a ValueError whose message contains the feed id |
| Normalizer.BatchSharesProvenance | webhook2rss.py:260-269 | all items of one call share `msg_hash` and `raw_msg`, and payloads of the same shape share `msg_hash` |
| Events.SortNewestFirst | webhook2rss.py:140-142 | the ordering is a permutation of the feed's rows, newest first, strictly so when ids are distinct |
| Events.Limit | webhook2rss.py:143 | `LIMIT n` keeps the first min(n, count) rows, and all of them for negative n |
| Events.LimitKeepsNewest | webhook2rss.py:139-143 | a row survives the sub-select exactly when fewer than `n` rows are newer than it (or n is negative) |
| EventStore.Prune | webhook2rss.py:136-147 | the DELETE keeps exactly the rows of other feeds and the rows of the feed whose id the sub-select returned |
| EventStore.TopIdsSelectRows | webhook2rss.py:139-143 | with distinct ids, a row's id is in the sub-select's result exactly when the row is among the first `LIMIT` rows of the newest-first ordering |
| EventStore.PruneKeepsTop | webhook2rss.py:136-147 | after the DELETE the feed holds exactly the rows the sub-select returned, as many as it returned |
| EventStore.AddEvent | webhook2rss.py:114-147 | a missing description or link raises KeyError, a test flag SQLite cannot bind (a list, a dict, an int outside 64 bits) raises the binding error, and then a retention bound outside 64 bits raises OverflowError at the DELETE; every failure changes nothing; otherwise the row gets the next id, the counter advances, and no row other than the new one appears |
| EventStore.AddEventValid | webhook2rss.py:118-147 | ids stay ascending and below the counter; the new id is greater than every earlier id |
| EventStore.AddEventOtherFeeds | webhook2rss.py:136-147 | rows of every other feed are exactly as before the insert |
| EventStore.PruneKeepsNewest | webhook2rss.py:136-147 | after the DELETE, the feed holds exactly its rows with fewer than `limit` newer rows, min(limit, count) of them |
| EventStore.AddEventRetention | webhook2rss.py:118-147 | after the insert the feed holds exactly the newest `limit` of its old rows plus the new one, min(limit, old count + 1) of them |
| EventStore.AddEventKeepsNewest | webhook2rss.py:118-147 | with `limit >= 1`, an item no older than the feed's rows survives its own prune |
| EventStore.AddEventWithinLimit | webhook2rss.py:136-147 | if every feed was within `limit` rows, every feed still is |
| EventStore.GetEvents | webhook2rss.py:200-212 | a retention bound outside SQLite's 64-bit INTEGER range raises OverflowError; any other bound gives the listing `ListEvents` |
| EventStore.ListEvents | webhook2rss.py:200-212 | at most `limit` rows, all from the feed and the table, newest first, with non-increasing pub_date |
| EventStore.TopOfListing | webhook2rss.py:202-211 | the first `limit` rows of the ordering are rows of the feed, listed newest first |
| EventStore.ListEventsNewest | webhook2rss.py:200-212 | a row is listed exactly when it belongs to the feed and fewer than `limit` of the feed's rows are newer |
| EventStore.ListEventsComplete | webhook2rss.py:200-212 | when every feed is within `limit`, the listing holds all of the feed's rows |
| RetentionExample.ThreeInsertsKeepTwo | webhook2rss.py:136-147 | with `MAX_ITEMS` = 2, inserting A, B and C at rising times leaves B and C, listed C then B |
| Catalog.CreateOne | webhook2rss.py:82-104 | a defined entry replaces the feed's row wholesale, stamped with the clock; an absent or null entry leaves the table unchanged; no other row changes |
| Catalog.AddFeed | webhook2rss.py:76-111 | the given feed's row, or every defined feed's row when none is given, is written from its definition; every other row stays |
| Catalog.Reconciled | webhook2rss.py:169-178 | after reconciliation every defined feed has a row, old rows are untouched, and each new row comes from its definition |
| Catalog.RowsForStep | webhook2rss.py:176-178 | one more `add_feed(key)` extends the rows written so far by exactly that key's row |
| Catalog.Reconcile | webhook2rss.py:169-178 | the loop over missing keys, in any order, produces exactly `Reconciled` |
| Catalog.ReconcileIdempotent | webhook2rss.py:169-178 | a second reconciliation, at any clock, adds and changes nothing |
| Catalog.GetFeedAsWritten | webhook2rss.py:157-190 | as written: when reconciliation had keys to add, looking up a truthy feed id raises TypeError and a falsy one gets the feeds as an unkeyed list; with nothing to add, a stored feed gives its row, an unknown id raises KeyError, and a falsy id gets every row keyed by id |
| Catalog.GetFeedAsWrittenRejectsNewFeed | webhook2rss.py:176-188 | the first request for a newly defined feed fails as written, and returns the new row under `GetFeed` |
| Catalog.GetFeed | webhook2rss.py:157-190 | the corrected lookup: the table is reconciled; a stored feed gives its row, a newly defined one gives its new row, and an unknown id raises KeyError; a falsy id gives every row keyed by id |
| Catalog.ResolveTwiceCreatesOnce | webhook2rss.py:157-190 | resolving a new feed twice leaves the table, the answer and the creation time as the first call left them |
| Atom.BuildFeed | webhook2rss.py:312-329 | feed id, title, link, icon and subtitle come from the feed row; `updated` is the first event's pub_date, or now when there are none; there is one entry per event, in order, with guid, title, link, pub_date and description |
| Atom.FeedOfListing | webhook2rss.py:310-329 | built from `get_events`: at most `limit` entries, non-increasing `updated`, and the feed's `updated` no earlier than any entry's |
| Atom.Render | webhook2rss.py:307-329 | once `get_feed` has answered: its exception passes through unchanged; an empty answer raises "requested feed does not exist"; otherwise a failing `get_events` (a bound outside 64 bits) raises OverflowError; then a list raises TypeError, a collection keyed by feed id raises KeyError for the first of `feed_name`, `feed_url`, `feed_icon_url`, `feed_description` that is not also a feed id, and a single feed gives exactly `BuildFeed` of that row and the `get_events` listing |
| Atom.FeedIdShadowsField | webhook2rss.py:314-315 | a lookup of all feeds that holds a feed with id `feed_name` gets past the title and fails with KeyError("feed_url") |
| Atom.AtomFeed | webhook2rss.py:304-332 | over the corrected `get_feed`: the feeds table is reconciled; a stored or defined feed gives exactly the document `BuildFeed` makes from its reconciled row and its `get_events` listing, or OverflowError when the bound is outside 64 bits; an unknown feed raises KeyError |
| Atom.AtomFeedAsWritten | webhook2rss.py:304-314 | over `get_feed` as written (lines 185-188): whenever reconciliation has a definition key to add, the route fails with TypeError; otherwise it answers exactly as the corrected route |
| Atom.NewFeedFirstRequest | webhook2rss.py:304-314 | the first Atom request for a newly defined feed fails as written, and under the corrected lookup succeeds exactly when the retention bound is within 64 bits |
| Webhook.InsertablePrefixAll | webhook2rss.py:294-295 | the first `n` items all pass `add_event` exactly when each of them is insertable |
| Webhook.InsertEach | webhook2rss.py:294-295 | committing the first `n` items one `add_event` after another hands out exactly `n` new ids |
| Webhook.Commit | webhook2rss.py:294-295 | one call of the loop body, `add_event` (lines 114-147), commits exactly when the item is insertable, leaving the table `add_event` leaves, and otherwise raises the item's KeyError, binding error or the bound's OverflowError |
| Webhook.Run | webhook2rss.py:294-295 | a run of the loop that gets through `n` calls got through every shorter run |
| Webhook.RunUntilRejected | webhook2rss.py:294-295 | the loop stops at the first call that raises, or after the last item; the table it ends with is what the calls before it committed |
| Webhook.RunPreserves | webhook2rss.py:294-295 | a table property every committing call keeps holds after any run that commits |
| Webhook.RunCommitTo | webhook2rss.py:294-295 | running `add_event` over the first `n` items commits all of them exactly when each is insertable, ending at the left fold `InsertEach` |
| Webhook.InsertEachKeeps | webhook2rss.py:294-295 | committing items one by one keeps the store invariant and the per-feed bound, only raises ids, and leaves other feeds' rows as they were |
| Webhook.Titles | webhook2rss.py:296 | the reply lists one title per item, in item order |
| Webhook.InsertAll | webhook2rss.py:294-296 | success exactly when every item is insertable, the table then being the fold of `add_event` over all items and the reply their titles; otherwise, for the first rejected item, the table is the fold over the items before it and the reply is its KeyError, binding error or the bound's OverflowError |
| Webhook.UnbindableTestRejectsAll | webhook2rss.py:264-267 | every item carries the payload's `test` value, so one SQLite cannot bind (line 132) makes every item fail at insert, so the first item is rejected and nothing is committed |
| Webhook.OverflowingBoundRejectsAll | webhook2rss.py:136-147 | a retention bound outside 64 bits rejects every item, so nothing is committed, and a complete item is rejected with OverflowError |
| Webhook.Ingest | webhook2rss.py:287-301 | a payload `parse_handler` rejects changes nothing and its error is the reply; otherwise the outcome is that of `InsertAll` on the stamped items: all committed and their titles, or the items before the first rejected one committed and its error |

## Left out

- Flask: routing, `request.get_json()`, the JSON and Atom responses, status codes,
  logging, and the `/healthz` and `/diagnostics` routes and the CLI. The model
  returns the reply's content or the exception that became the error response.
- The SQLite connection lifecycle and the DDL (webhook2rss.py:28-73). As written, the
  `events` DDL lacks commas after `event_pub_date` and `raw_msg`, and has no `is_test`
  column. A table created from that text has none of the columns `raw_msg`, `msg_hash`
  and `is_test`, so the INSERT could not run against it. The model uses the INSERT's
  columns instead.
- Storage errors (`sqlite3.Error`) other than the binding errors of the `is_test` and
  `MAX_ITEMS` parameters (disk, lock and constraint failures). The store is abstract and does not
  fail otherwise.
- EventStore.BindError: the binding error texts are those of CPython 3.11 and later;
  a float test value (bindable as REAL) is not modelled, since JSON numbers are
  integers here.
- Catalog.CreateOne: an entry of the definitions file lacking one of `name`,
  `description`, `icon_url`, `url` or `token` raises KeyError in the source; the model's
  entries always carry all five fields, so that failure is not modelled.
- Catalog.AddFeed: because of that, the rollback of a whole `add_feed()` on such an
  entry, and a `get_feed` reconciliation that stops part-way with the keys before it
  committed (each `add_feed(key)` is its own transaction), are not modelled.
- Reading the YAML definitions file, and the parser module's loading through
  `importlib`/`inspect`. Both are parameters.
- SHA-256, the byte layout of `json.dumps`, and `datetime.now()`. These are
  parameters. `datetime.fromisoformat` is left out: the model keeps `updated` as the
  stored text, so a timestamp it cannot parse is not modelled.
- feedgen's XML serialisation. The document is an abstract record.
- Atom.BuildFeed: `entries` lists the entries in the order of the `add_entry()` calls,
  which is the listing's newest-first order. The order feedgen writes them in the
  served XML is the library's concern and is not modelled.
- Text: strings are sequences of Unicode scalar values, so a Python str holding a lone
  surrogate (which a `\ud800` escape in the JSON payload produces) has no model. The
  UnicodeEncodeError it causes, in `make_id`'s `encode("utf-8")` when it reaches a
  title, and in sqlite3's parameter binding when it reaches another column, is not
  modelled.
- Concurrency between requests. Each `add_event` is one atomic step.
- Normalizer.ParseHandler: whatever a parser raises is modelled as one
  `ParserRaised(message)`. A parser returns a list of string-valued dicts, so
  non-string field values and non-list returns are not modelled.
- Normalizer.ParseHandler: the parser is a pure function of the payload, and
  stamping builds new items. In the source the parser receives `data` by reference,
  and the skeleton, `is_test` and `raw_msg` are computed after it returns, so a parser
  that mutates `data` changes them. The source also stamps the returned dicts in
  place, so one dict returned twice carries the later stamp for both items. Neither
  effect is modelled.
- Normalizer.Stamp: a payload that is not a mapping raises AttributeError only when
  there is an item to stamp, as in the source. The exact text of that error is not
  modelled.
- JsonValues.Skeleton: JSON numbers are integers; floats and the member order of
  dicts (which matters only to the non-canonical `raw_msg` dump, itself a parameter)
  are not modelled.
- Atom.AtomFeed: the route's exception handler (which formats a 500 response and
  itself refers to `feed`, unbound when `get_feed` raised) is not modelled. The model
  returns the exception. The feed id in the URL is never empty, but a falsy id is
  still modelled as the lookup of all feeds.
- Atom.Render: when every field name the route reads (`feed_name`, `feed_url`,
  `feed_icon_url`, `feed_description`) is also a feed id, the route hands whole feed
  rows to feedgen as text. What the library then raises is not modelled; the model
  only says the route fails.
- Atom.SelfId takes the port as its decimal text, not as the integer `PORT`.
- default_parsers.py holds no executable code, so there is nothing in it to model.

## Findings

| source | as written | input that shows it | evidently intended | confidence | as-written member | corrected member |
|---|---|---|---|---|---|---|
| webhook2rss.py:185-188 | after a reconciliation that added rows, `db_feeds` is rebuilt as a list, so `db_feeds[feed_id]` raises TypeError | empty `feeds` table, definitions `{news: {...}}`, request for `/news.atom` | return the requested feed's row from the reconciled table, keyed by id | not executed | Catalog.GetFeedAsWritten, Catalog.GetFeedAsWrittenRejectsNewFeed, Atom.AtomFeedAsWritten | Catalog.GetFeed, Atom.AtomFeed |

`Atom.AtomFeed` uses the corrected `Catalog.GetFeed`; `Atom.AtomFeedAsWritten` and
`Atom.NewFeedFirstRequest` show the route over the code as written. The same list also
reaches `/feeds` (webhook2rss.py:348-349), which asks for every feed expecting the
dict keyed by id; after a reconciliation that added rows it receives the list, on
which `feeds.values()` raises AttributeError. The `Listed` answer of
`Catalog.GetFeedAsWritten` is that list; the route itself is not modelled. Under the code as written, the
first Atom request after a new feed is added to the definitions fails with a 500
error. It fails again whenever reconciliation has a key to add, which includes a
key whose entry is null, because such a key never gets a row.

=== FILE: atom.dfy ===
/** The body of the `/<feed_id>.atom` route: the feed-level fields and one entry per
    listed event, as an abstract document (the XML itself is the library's business).
    Feed-level `updated` follows atom:updated, section 4.2.15 of RFC 4287. */
module Atom {
  import opened Wrappers
  import opened Exceptions
  import opened Events
  import opened Text
  import EventStore
  import Catalog

  datatype Entry = Entry(id: string, title: string, link: string, updated: Timestamp, summary: string)

  datatype AtomDoc = AtomDoc(
    id: string, title: string, link: string, icon: string, subtitle: string,
    updated: Timestamp, entries: seq<Entry>)

  /** The feed id `f"{BASE_URL}:{PORT}/{feed_id}.atom"`, the port given as its text. */
  function SelfId(baseUrl: string, port: string, feedId: FeedId): string
  {
    baseUrl + ":" + port + "/" + feedId + ".atom"
  }

  function EntryOf(e: Event): Entry
  {
    Entry(e.guid, e.title, e.link, e.pubDate, e.description)
  }

  /** The document for a feed row and its listed events; `now` stands for the clock
      read when there are no events. */
  function BuildFeed(selfId: string, feed: Catalog.FeedView, events: seq<Event>, now: Timestamp): (d: AtomDoc)
    ensures d.id == selfId && d.title == feed.name && d.link == feed.url
    ensures d.icon == feed.iconUrl && d.subtitle == feed.description
    ensures d.updated == if |events| > 0 then events[0].pubDate else now
    ensures |d.entries| == |events|
    ensures forall i :: 0 <= i < |events| ==>
              && d.entries[i].id == events[i].guid
              && d.entries[i].title == events[i].title
              && d.entries[i].link == events[i].link
              && d.entries[i].updated == events[i].pubDate
              && d.entries[i].summary == events[i].description
  {
    var updated := if |events| > 0 then events[0].pubDate else now;
    AtomDoc(selfId, feed.name, feed.url, feed.iconUrl, feed.description, updated,
            seq(|events|, i requires 0 <= i < |events| => EntryOf(events[i])))
  }

  /** Built from `get_events`, the document has at most `limit` entries, newest first,
      and its `updated` is no earlier than any entry's. */
  lemma {:induction false} FeedOfListing(st: EventStore.Store, f: FeedId, limit: int, selfId: string,
                                         feed: Catalog.FeedView, now: Timestamp)
    ensures var d := BuildFeed(selfId, feed, EventStore.ListEvents(st, f, limit), now);
            && (limit >= 0 ==> |d.entries| <= limit)
            && (forall i, j :: 0 <= i < j < |d.entries| ==> !Text.Before(d.entries[i].updated, d.entries[j].updated))
            && (forall i :: 0 <= i < |d.entries| ==> !Text.Before(d.updated, d.entries[i].updated))
  {
    var events := EventStore.ListEvents(st, f, limit);
    var d := BuildFeed(selfId, feed, events, now);
    forall i | 0 < i < |d.entries|
      ensures !Text.Before(d.updated, d.entries[i].updated)
    {
      assert !Text.Before(events[0].pubDate, events[i].pubDate);
    }
    if |d.entries| > 0 {
      Text.BeforeIrreflexive(d.updated);
    }
  }

  /** `atom_feed(feed_id)`: resolve the feed (reconciling the table), list its events,
      build the document. */
  function AtomFeed(st: EventStore.Store, cat: Catalog.Catalog, config: Catalog.Config,
                    clock: FeedId -> Timestamp, feedId: FeedId, limit: int,
                    baseUrl: string, port: string, now: Timestamp): (r: (Catalog.Catalog, Result<AtomDoc, Error>))
    ensures r.0 == Catalog.Reconciled(cat, config, clock)
    ensures feedId != "" && feedId !in cat && !Catalog.Defined(config, feedId) ==>
              r.1 == Failure(KeyError(feedId))
    ensures feedId != "" && feedId in Catalog.Reconciled(cat, config, clock) && EventStore.SqlInteger(limit) ==>
              r.1 == Success(BuildFeed(SelfId(baseUrl, port, feedId),
                                       Catalog.ViewOf(feedId, Catalog.Reconciled(cat, config, clock)[feedId]),
                                       EventStore.ListEvents(st, feedId, limit), now))
    ensures feedId != "" && feedId in Catalog.Reconciled(cat, config, clock) && !EventStore.SqlInteger(limit) ==>
              r.1 == Failure(EventStore.Overflow)
  {
    Render(st, Catalog.GetFeed(cat, config, clock, Some(feedId)), feedId, limit, baseUrl, port, now)
  }

  /** The keys the route reads from the feed it got, in the order it reads them. */
  const RowKeys: seq<string> := ["feed_name", "feed_url", "feed_icon_url", "feed_description"]

  /** The position of the first of `keys` missing from `present`; `|keys|` when none is. */
  function FirstMissing(keys: seq<string>, present: set<string>): (i: nat)
    ensures i <= |keys|
    ensures forall j :: 0 <= j < i ==> keys[j] in present
    ensures i < |keys| ==> keys[i] !in present
  {
    if |keys| == 0 || keys[0] !in present then 0
    else 1 + FirstMissing(keys[1..], present)
  }

  /** Stands for what the feed library raises when every field the route reads is a
      whole feed row rather than text; the library's behaviour there is not modelled. */
  const LibraryRejectsRow: Error := Exception("feed fields are rows, not text")

  /** The route's body once `get_feed` has answered: a falsy answer raises "requested
      feed does not exist"; then `get_events` runs; then the fields are read from the
      answer, so a list raises TypeError and a collection keyed by feed id raises
      KeyError for the first field name that is not also a feed id; one feed gives the
      document. */
  function Render(st: EventStore.Store, resolved: Catalog.Resolved, feedId: FeedId, limit: int,
                  baseUrl: string, port: string, now: Timestamp): (r: (Catalog.Catalog, Result<AtomDoc, Error>))
    ensures r.0 == resolved.catalog
    ensures resolved.answer.Failure? ==> r.1 == Failure(resolved.answer.error)
    ensures resolved.answer.Success? && resolved.answer.value.All? && |resolved.answer.value.feeds| == 0 ==>
              r.1 == Failure(Exception("requested feed does not exist"))
    ensures resolved.answer.Success? && resolved.answer.value.Listed? && |resolved.answer.value.rows| == 0 ==>
              r.1 == Failure(Exception("requested feed does not exist"))
    ensures resolved.answer.Success? && !EventStore.SqlInteger(limit) &&
            (resolved.answer.value.One? ||
             (resolved.answer.value.All? && |resolved.answer.value.feeds| > 0) ||
             (resolved.answer.value.Listed? && |resolved.answer.value.rows| > 0)) ==>
              r.1 == Failure(EventStore.Overflow)
    ensures resolved.answer.Success? && resolved.answer.value.One? && EventStore.SqlInteger(limit) ==>
              r.1 == Success(BuildFeed(SelfId(baseUrl, port, feedId), resolved.answer.value.feed,
                                       EventStore.ListEvents(st, feedId, limit), now))
    ensures resolved.answer.Success? && resolved.answer.value.All? && |resolved.answer.value.feeds| > 0 &&
            EventStore.SqlInteger(limit) && FirstMissing(RowKeys, resolved.answer.value.feeds.Keys) < |RowKeys| ==>
              r.1 == Failure(KeyError(RowKeys[FirstMissing(RowKeys, resolved.answer.value.feeds.Keys)]))
    ensures resolved.answer.Success? && resolved.answer.value.All? && |resolved.answer.value.feeds| > 0 ==>
              r.1.Failure?
    ensures resolved.answer.Success? && resolved.answer.value.Listed? && |resolved.answer.value.rows| > 0 &&
            EventStore.SqlInteger(limit) ==>
              r.1 == Failure(TypeError("list indices must be integers or slices, not str"))
  {
    match resolved.answer
    case Failure(e) => (resolved.catalog, Failure(e))
    case Success(answer) =>
      var empty := match answer
                   case One(_) => false
                   case All(feeds) => |feeds| == 0
                   case Listed(rows) => |rows| == 0;
      if empty then (resolved.catalog, Failure(Exception("requested feed does not exist")))
      else match EventStore.GetEvents(st, feedId, limit)
        case Failure(e) => (resolved.catalog, Failure(e))
        case Success(events) =>
          match answer
          case One(feed) => (resolved.catalog, Success(BuildFeed(SelfId(baseUrl, port, feedId), feed, events, now)))
          case All(feeds) =>
            var i := FirstMissing(RowKeys, feeds.Keys);
            if i < |RowKeys| then (resolved.catalog, Failure(KeyError(RowKeys[i])))
            else (resolved.catalog, Failure(LibraryRejectsRow))
          case Listed(_) => (resolved.catalog, Failure(TypeError("list indices must be integers or slices, not str")))
  }

  /** A lookup of every feed that holds a feed whose id is "feed_name": the route reads
      that feed's row for the title and first fails at the link. */
  lemma FeedIdShadowsField(st: EventStore.Store, v: Catalog.FeedView, limit: int,
                           baseUrl: string, port: string, now: Timestamp)
    requires EventStore.SqlInteger(limit)
    ensures Render(st, Catalog.Resolved(map[], Success(Catalog.All(map["feed_name" := v]))), "", limit,
                   baseUrl, port, now).1 == Failure(KeyError("feed_url"))
  {
    var keys := map["feed_name" := v].Keys;
    assert "feed_url" !in keys;
    assert FirstMissing(RowKeys, keys) == 1 by {
      assert RowKeys[0] in keys;
      assert RowKeys[1..][0] !in keys;
    }
  }

  /** `atom_feed(feed_id)` over `get_feed` as written: whenever the reconciliation has a
      definition key to add, the lookup raises TypeError and the route fails; otherwise
      it answers as `AtomFeed` does. */
  function AtomFeedAsWritten(st: EventStore.Store, cat: Catalog.Catalog, config: Catalog.Config,
                             clock: FeedId -> Timestamp, feedId: FeedId, limit: int,
                             baseUrl: string, port: string, now: Timestamp): (r: (Catalog.Catalog, Result<AtomDoc, Error>))
    ensures r.0 == Catalog.Reconciled(cat, config, clock)
    ensures feedId != "" && config.Keys - cat.Keys != {} ==>
              r.1 == Failure(TypeError("list indices must be integers or slices, not str"))
    ensures feedId != "" && config.Keys - cat.Keys == {} ==>
              r == AtomFeed(st, cat, config, clock, feedId, limit, baseUrl, port, now)
  {
    Render(st, Catalog.GetFeedAsWritten(cat, config, clock, Some(feedId)), feedId, limit, baseUrl, port, now)
  }

  /** The first Atom request after a feed is added to the definitions: as written it
      fails, while the corrected lookup serves the new feed's document whenever the
      retention bound can be bound. */
  lemma NewFeedFirstRequest(st: EventStore.Store, clock: FeedId -> Timestamp, limit: int,
                            baseUrl: string, port: string, now: Timestamp)
    ensures var config: Catalog.Config := map["news" := Some(Catalog.FeedConfig("News", "d", "i", "u", "t"))];
            && AtomFeedAsWritten(st, map[], config, clock, "news", limit, baseUrl, port, now).1.Failure?
            && (AtomFeed(st, map[], config, clock, "news", limit, baseUrl, port, now).1.Success?
                <==> EventStore.SqlInteger(limit))
  {
    var config: Catalog.Config := map["news" := Some(Catalog.FeedConfig("News", "d", "i", "u", "t"))];
    var empty: Catalog.Catalog := map[];
    assert "news" in config.Keys - empty.Keys;
    assert Catalog.Defined(config, "news");
  }
}

=== FILE: base.dfy ===
/** Optional values and failure-carrying results. */
module Wrappers {

  datatype Option<+T> = None | Some(value: T)

  /** A value or the exception that replaced it. */
  datatype Result<+R, +E> = Success(value: R) | Failure(error: E)
}

/** The Python exceptions the modelled code can raise, with the text `str(e)` shows. */
module Exceptions {

  datatype Error =
    | ValueError(message: string)       // raised explicitly, e.g. no parser for a feed
    | KeyError(key: string)             // a missing dict key
    | AttributeError(message: string)   // `.get` on a payload that is not a mapping
    | TypeError(message: string)        // indexing a list with a string
    | ProgrammingError(message: string) // sqlite3 cannot bind a parameter of this type
    | OverflowError(message: string)    // an int outside SQLite's 64-bit INTEGER range
    | ParserRaised(message: string)     // whatever a user-supplied parser raised
    | Exception(message: string)        // a bare `raise Exception(...)`
}

=== FILE: catalog.dfy ===
/** The `feeds` table and its reconciliation with the feed definitions file:
    `add_feed` (insert-or-replace from the definitions) and `get_feed` (add every
    defined feed the table lacks, then answer one feed or all). */
module Catalog {
  import opened Wrappers
  import opened Exceptions
  import opened Text

  /** One entry of the feed definitions file. */
  datatype FeedConfig = FeedConfig(name: string, description: string, iconUrl: string, url: string, token: string)

  /** The definitions file as loaded: a key whose entry is null maps to `None`. */
  type Config = map<FeedId, Option<FeedConfig>>

  /** A row of the `feeds` table. */
  datatype FeedRow = FeedRow(
    name: string, description: string, iconUrl: string, url: string, createdAt: Timestamp, token: string)

  type Catalog = map<FeedId, FeedRow>

  /** The columns `get_feed` selects: everything but the token. */
  datatype FeedView = FeedView(
    id: FeedId, name: string, description: string, iconUrl: string, createdAt: Timestamp, url: string)

  /** `get_feed`'s answer: one feed, every feed keyed by id, or every feed as a list.
      The list's order is that of a SELECT without ORDER BY and is not modelled. */
  datatype Lookup = One(feed: FeedView) | All(feeds: map<FeedId, FeedView>) | Listed(rows: set<FeedView>)

  /** `get_feed`'s committed effect on the table, and its answer. */
  datatype Resolved = Resolved(catalog: Catalog, answer: Result<Lookup, Error>)

  /** `create_one` has something to write for `id`: a non-null definition. */
  predicate Defined(config: Config, id: FeedId)
  {
    id in config && config[id].Some?
  }

  function RowFrom(c: FeedConfig, createdAt: Timestamp): FeedRow
  {
    FeedRow(c.name, c.description, c.iconUrl, c.url, createdAt, c.token)
  }

  function ViewOf(id: FeedId, row: FeedRow): FeedView
  {
    FeedView(id, row.name, row.description, row.iconUrl, row.createdAt, row.url)
  }

  /** The rows `create_one` writes for the keys `keys` of the definitions. */
  function RowsFor(config: Config, keys: set<FeedId>, clock: FeedId -> Timestamp): map<FeedId, FeedRow>
    requires keys <= config.Keys
  {
    map k | k in keys && config[k].Some? :: RowFrom(config[k].value, clock(k))
  }

  /** The rows a reconciliation adds: every defined feed the table lacks, created at
      the clock reading taken for it. */
  function MissingRows(cat: Catalog, config: Config, clock: FeedId -> Timestamp): map<FeedId, FeedRow>
  {
    RowsFor(config, config.Keys - cat.Keys, clock)
  }

  /** Writing one more key's row extends the rows written so far by that key's row. */
  lemma RowsForStep(cat: Catalog, config: Config, done: set<FeedId>, key: FeedId, clock: FeedId -> Timestamp)
    requires done <= config.Keys && key in config && key !in done
    ensures CreateOne(cat + RowsFor(config, done, clock), config, key, clock(key))
            == cat + RowsFor(config, done + {key}, clock)
  {
    var before := RowsFor(config, done, clock);
    var after := RowsFor(config, done + {key}, clock);
    if Defined(config, key) {
      var row := RowFrom(config[key].value, clock(key));
      assert after == before[key := row] by {
        assert after.Keys == before.Keys + {key};
      }
      assert (cat + before)[key := row] == cat + before[key := row] by {
        assert ((cat + before)[key := row]).Keys == (cat + before[key := row]).Keys;
      }
    } else {
      assert after == before by {
        assert after.Keys == before.Keys;
      }
    }
  }

  /** The table after reconciliation: old rows plus the missing defined ones. */
  function Reconciled(cat: Catalog, config: Config, clock: FeedId -> Timestamp): (r: Catalog)
    ensures forall k :: Defined(config, k) ==> k in r
    ensures forall k :: k in cat ==> k in r && r[k] == cat[k]
    ensures forall k :: k in r ==> k in cat || Defined(config, k)
    ensures forall k :: k in r && k !in cat ==> Defined(config, k) && r[k] == RowFrom(config[k].value, clock(k))
  {
    cat + MissingRows(cat, config, clock)
  }

  /** `create_one(feed_id)`: insert-or-replace the row from its definition; an absent
      or null definition writes nothing. */
  function CreateOne(cat: Catalog, config: Config, id: FeedId, now: Timestamp): (r: Catalog)
    ensures Defined(config, id) ==> id in r && r[id] == RowFrom(config[id].value, now)
    ensures !Defined(config, id) ==> r == cat
    ensures forall k :: k != id ==> (k in r <==> k in cat)
    ensures forall k :: k != id && k in cat ==> r[k] == cat[k]
  {
    if Defined(config, id) then cat[id := RowFrom(config[id].value, now)] else cat
  }

  /** `add_feed(feed_id)`: one transaction over `create_one` for the given feed, or for
      every key of the definitions when none is given. `clock(k)` is the time read
      when row `k` is written. */
  function AddFeed(cat: Catalog, config: Config, id: Option<FeedId>, clock: FeedId -> Timestamp): (r: Catalog)
    ensures forall k :: k in r <==> k in cat || (Defined(config, k) && (id.None? || id.value == k))
    ensures forall k :: k in r && Defined(config, k) && (id.None? || id.value == k) ==>
              r[k] == RowFrom(config[k].value, clock(k))
    ensures forall k :: k in cat && !(Defined(config, k) && (id.None? || id.value == k)) ==> r[k] == cat[k]
  {
    match id
    case Some(one) => CreateOne(cat, config, one, clock(one))
    case None => cat + map k | k in config && config[k].Some? :: RowFrom(config[k].value, clock(k))
  }

  /** The reconciliation loop of `get_feed`: `add_feed(key)` for every key of the
      definitions the table lacks, in any order. */
  method Reconcile(cat: Catalog, config: Config, clock: FeedId -> Timestamp) returns (r: Catalog)
    ensures r == Reconciled(cat, config, clock)
  {
    var missing := config.Keys - cat.Keys;
    var todo := missing;
    r := cat;
    assert RowsFor(config, {}, clock) == map[];
    while todo != {}
      invariant todo <= missing
      invariant r == cat + RowsFor(config, missing - todo, clock)
      decreases todo
    {
      var key :| key in todo;
      RowsForStep(cat, config, missing - todo, key, clock);
      assert missing - todo + {key} == missing - (todo - {key});
      r := AddFeed(r, config, Some(key), clock);
      todo := todo - {key};
    }
    assert missing - todo == missing;
  }

  /** Reconciling again adds and changes nothing, whatever the clock now reads. */
  lemma {:induction false} ReconcileIdempotent(cat: Catalog, config: Config, clock: FeedId -> Timestamp,
                                               later: FeedId -> Timestamp)
    ensures Reconciled(Reconciled(cat, config, clock), config, later) == Reconciled(cat, config, clock)
  {
    var once := Reconciled(cat, config, clock);
    assert MissingRows(once, config, later) == map[] by {
      forall k | k in config.Keys - once.Keys
        ensures config[k].None?
      {
      }
    }
  }

  /** `get_feed(feed_id)` as written. After a reconciliation that had keys to add,
      the feeds are collected into a list: indexing that list by a feed id raises
      TypeError, and a falsy `feed_id` (absent or empty), which asks for every feed,
      gets the list instead of the dict keyed by id. */
  function GetFeedAsWritten(cat: Catalog, config: Config, clock: FeedId -> Timestamp,
                            feedId: Option<FeedId>): (r: Resolved)
    ensures r.catalog == Reconciled(cat, config, clock)
    ensures feedId.Some? && feedId.value != "" && config.Keys - cat.Keys != {} ==>
              r.answer == Failure(TypeError("list indices must be integers or slices, not str"))
    ensures feedId.Some? && feedId.value != "" && config.Keys - cat.Keys == {} ==>
              var id := feedId.value;
              && (id in cat ==> r.answer == Success(One(ViewOf(id, cat[id]))))
              && (id !in cat ==> r.answer == Failure(KeyError(id)))
    ensures (feedId.None? || feedId.value == "") && config.Keys - cat.Keys != {} ==>
              && r.answer.Success? && r.answer.value.Listed?
              && forall v :: v in r.answer.value.rows <==> v.id in r.catalog && v == ViewOf(v.id, r.catalog[v.id])
    ensures (feedId.None? || feedId.value == "") && config.Keys - cat.Keys == {} ==>
              && r.answer.Success? && r.answer.value.All?
              && r.answer.value.feeds.Keys == r.catalog.Keys
              && forall k :: k in r.catalog ==> r.answer.value.feeds[k] == ViewOf(k, r.catalog[k])
  {
    var after := Reconciled(cat, config, clock);
    var missing := config.Keys - cat.Keys;
    if feedId.Some? && feedId.value != "" then
      var id := feedId.value;
      if missing != {} then Resolved(after, Failure(TypeError("list indices must be integers or slices, not str")))
      else if id in after then Resolved(after, Success(One(ViewOf(id, after[id]))))
      else Resolved(after, Failure(KeyError(id)))
    else if missing != {} then
      Resolved(after, Success(Listed(set k | k in after :: ViewOf(k, after[k]))))
    else
      Resolved(after, Success(All(map k | k in after :: ViewOf(k, after[k]))))
  }

  /** `get_feed(feed_id)` as evidently intended: the lookup reads the reconciled table
      keyed by id. */
  function GetFeed(cat: Catalog, config: Config, clock: FeedId -> Timestamp,
                   feedId: Option<FeedId>): (r: Resolved)
    ensures r.catalog == Reconciled(cat, config, clock)
    ensures feedId.Some? && feedId.value != "" ==>
              var id := feedId.value;
              && (id in cat ==> r.answer == Success(One(ViewOf(id, cat[id]))))
              && (id !in cat && Defined(config, id) ==>
                    r.answer == Success(One(ViewOf(id, RowFrom(config[id].value, clock(id))))))
              && (id !in cat && !Defined(config, id) ==> r.answer == Failure(KeyError(id)))
    ensures (feedId.None? || feedId.value == "") ==>
              && r.answer.Success? && r.answer.value.All?
              && r.answer.value.feeds.Keys == r.catalog.Keys
              && forall k :: k in r.catalog ==> r.answer.value.feeds[k] == ViewOf(k, r.catalog[k])
  {
    var after := Reconciled(cat, config, clock);
    if feedId.Some? && feedId.value != "" then
      var id := feedId.value;
      if id in after then Resolved(after, Success(One(ViewOf(id, after[id]))))
      else Resolved(after, Failure(KeyError(id)))
    else
      Resolved(after, Success(All(map k | k in after :: ViewOf(k, after[k]))))
  }

  /** The first request for a newly defined feed: as written it fails, as intended it
      returns the row just created. */
  lemma GetFeedAsWrittenRejectsNewFeed(clock: FeedId -> Timestamp)
    ensures var config: Config := map["news" := Some(FeedConfig("News", "d", "i", "u", "t"))];
            && GetFeedAsWritten(map[], config, clock, Some("news")).answer.Failure?
            && GetFeed(map[], config, clock, Some("news")).answer
               == Success(One(FeedView("news", "News", "d", "i", clock("news"), "u")))
  {
    var config: Config := map["news" := Some(FeedConfig("News", "d", "i", "u", "t"))];
    var empty: Catalog := map[];
    assert "news" in config.Keys - empty.Keys;
  }

  /** Resolving the same feed twice creates its row once: the second call leaves the
      table, and the row's creation time, as the first left them. */
  lemma ResolveTwiceCreatesOnce(cat: Catalog, config: Config, clock: FeedId -> Timestamp,
                                later: FeedId -> Timestamp, id: FeedId)
    requires id != "" && id !in cat && Defined(config, id)
    ensures var first := GetFeed(cat, config, clock, Some(id));
            var second := GetFeed(first.catalog, config, later, Some(id));
            && second.catalog == first.catalog
            && second.answer == first.answer
            && second.answer.Success?
            && second.answer.value.feed.createdAt == clock(id)
  {
    ReconcileIdempotent(cat, config, clock, later);
  }
}

=== FILE: events.dfy ===
/** Stored events and the order `ORDER BY event_pub_date DESC` lists them in, made
    total by breaking equal timestamps on the store-assigned id (later insert first). */
module Events {
  import opened JsonValues
  import opened Text

  /** A row of the `events` table, with the columns the INSERT of `add_event` writes. */
  datatype Event = Event(
    id: nat,
    feed: FeedId,
    title: string,
    description: string,
    link: string,
    guid: string,
    pubDate: Timestamp,
    rawMsg: string,
    msgHash: string,
    isTest: Json)

  /** `a` is strictly older than `b` in the (pub_date, event_id) order. */
  predicate Older(a: Event, b: Event)
  {
    Text.Before(a.pubDate, b.pubDate) || (a.pubDate == b.pubDate && a.id < b.id)
  }

  lemma OlderIrreflexive(a: Event)
    ensures !Older(a, a)
  {
    Text.BeforeIrreflexive(a.pubDate);
  }

  lemma OlderAsymmetric(a: Event, b: Event)
    requires Older(a, b)
    ensures !Older(b, a)
  {
    if Text.Before(a.pubDate, b.pubDate) {
      Text.BeforeAsymmetric(a.pubDate, b.pubDate);
    } else {
      Text.BeforeIrreflexive(a.pubDate);
    }
  }

  lemma OlderTransitive(a: Event, b: Event, c: Event)
    requires Older(a, b) && Older(b, c)
    ensures Older(a, c)
  {
    if Text.Before(a.pubDate, b.pubDate) && Text.Before(b.pubDate, c.pubDate) {
      Text.BeforeTransitive(a.pubDate, b.pubDate, c.pubDate);
    }
  }

  /** Events with different ids are always ordered one way. */
  lemma OlderTotal(a: Event, b: Event)
    ensures Older(a, b) || Older(b, a) || (a.pubDate == b.pubDate && a.id == b.id)
  {
    Text.BeforeTotal(a.pubDate, b.pubDate);
  }

  /** "Not older than" chains: what the newest-first listing keeps between neighbours. */
  lemma NotOlderTransitive(a: Event, b: Event, c: Event)
    requires !Older(a, b) && !Older(b, c)
    ensures !Older(a, c)
  {
    OlderTotal(a, b);
    OlderTotal(b, c);
    if Older(a, c) {
      if Older(b, a) {
        OlderTransitive(b, a, c);
      } else if Older(c, b) {
        OlderTransitive(a, c, b);
      }
    }
  }

  /** Listed newest first: no event is older than one listed after it. */
  predicate NewestFirst(s: seq<Event>)
  {
    forall i, j {:trigger Older(s[i], s[j])} :: 0 <= i < j < |s| ==> !Older(s[i], s[j])
  }

  /** Listed newest first with no two events tied. */
  predicate StrictlyNewestFirst(s: seq<Event>)
  {
    forall i, j {:trigger Older(s[j], s[i])} :: 0 <= i < j < |s| ==> Older(s[j], s[i])
  }

  /** The primary-key property of the table: no two rows share an id. */
  predicate DistinctIds(s: seq<Event>)
  {
    forall i, j :: 0 <= i < j < |s| ==> s[i].id != s[j].id
  }

  /** Put `y` in front of a newest-first listing none of whose events is newer than it. */
  lemma ConsNewestFirst(y: Event, t: seq<Event>)
    requires NewestFirst(t)
    requires forall e :: e in t ==> !Older(y, e)
    ensures NewestFirst([y] + t)
  {
    var r := [y] + t;
    forall i, j | 0 <= i < j < |r|
      ensures !Older(r[i], r[j])
    {
      if i == 0 {
        assert r[j] == t[j - 1];
      } else {
        assert r[i] == t[i - 1] && r[j] == t[j - 1];
      }
    }
  }

  /** Put `y` in front of a strictly newest-first listing of events all older than it. */
  lemma ConsStrictlyNewestFirst(y: Event, t: seq<Event>)
    requires StrictlyNewestFirst(t)
    requires forall e :: e in t ==> Older(e, y)
    ensures StrictlyNewestFirst([y] + t)
  {
    var r := [y] + t;
    forall i, j | 0 <= i < j < |r|
      ensures Older(r[j], r[i])
    {
      if i == 0 {
        assert r[j] == t[j - 1];
      } else {
        assert r[i] == t[i - 1] && r[j] == t[j - 1];
      }
    }
  }

  /** Place `x` into a newest-first listing, after every event newer than it. */
  function Insert(x: Event, s: seq<Event>): (r: seq<Event>)
    ensures multiset(r) == multiset(s) + multiset{x}
  {
    if |s| == 0 || !Older(x, s[0]) then [x] + s
    else
      assert s == [s[0]] + s[1..];
      [s[0]] + Insert(x, s[1..])
  }

  lemma InsertMembers(x: Event, s: seq<Event>, e: Event)
    ensures e in Insert(x, s) <==> e == x || e in s
  {
    assert e in Insert(x, s) <==> e in multiset(Insert(x, s));
    assert e in s <==> e in multiset(s);
  }

  lemma {:induction false} InsertNewestFirst(x: Event, s: seq<Event>)
    requires NewestFirst(s)
    ensures NewestFirst(Insert(x, s))
  {
    if |s| == 0 || !Older(x, s[0]) {
      forall e | e in s
        ensures !Older(x, e)
      {
        var j :| 0 <= j < |s| && s[j] == e;
        if j > 0 { NotOlderTransitive(x, s[0], s[j]); }
      }
      ConsNewestFirst(x, s);
    } else {
      var tail := s[1..];
      InsertNewestFirst(x, tail);
      forall e | e in Insert(x, tail)
        ensures !Older(s[0], e)
      {
        InsertMembers(x, tail, e);
        if e == x {
          OlderAsymmetric(x, s[0]);
        } else {
          var j :| 0 <= j < |tail| && tail[j] == e;
          assert s[j + 1] == e;
        }
      }
      ConsNewestFirst(s[0], Insert(x, tail));
    }
  }

  lemma {:induction false} InsertStrictlyNewestFirst(x: Event, s: seq<Event>)
    requires StrictlyNewestFirst(s)
    requires forall e :: e in s ==> e.id != x.id
    ensures StrictlyNewestFirst(Insert(x, s))
  {
    if |s| == 0 || !Older(x, s[0]) {
      if |s| > 0 {
        OlderTotal(x, s[0]);
      }
      forall e | e in s
        ensures Older(e, x)
      {
        var j :| 0 <= j < |s| && s[j] == e;
        if j > 0 { OlderTransitive(s[j], s[0], x); }
      }
      ConsStrictlyNewestFirst(x, s);
    } else {
      var tail := s[1..];
      InsertStrictlyNewestFirst(x, tail);
      forall e | e in Insert(x, tail)
        ensures Older(e, s[0])
      {
        InsertMembers(x, tail, e);
        if e != x {
          var j :| 0 <= j < |tail| && tail[j] == e;
          assert s[j + 1] == e;
        }
      }
      ConsStrictlyNewestFirst(s[0], Insert(x, tail));
    }
  }

  /** Inserting the head of `s` into the sorted rest keeps the listing (strictly)
      newest first. */
  lemma InsertHeadSorted(x: Event, tail: seq<Event>, rest: seq<Event>)
    requires multiset(rest) == multiset(tail)
    requires NewestFirst(rest)
    requires DistinctIds(tail) ==> StrictlyNewestFirst(rest)
    ensures NewestFirst(Insert(x, rest))
    ensures DistinctIds([x] + tail) ==> StrictlyNewestFirst(Insert(x, rest))
  {
    InsertNewestFirst(x, rest);
    var s := [x] + tail;
    if DistinctIds(s) {
      assert DistinctIds(tail) by {
        forall i, j | 0 <= i < j < |tail|
          ensures tail[i].id != tail[j].id
        {
          assert s[i + 1] == tail[i] && s[j + 1] == tail[j];
        }
      }
      forall e | e in rest
        ensures e.id != x.id
      {
        assert e in multiset(tail);
        var j :| 0 <= j < |tail| && tail[j] == e;
        assert s[0] == x && s[j + 1] == e;
      }
      InsertStrictlyNewestFirst(x, rest);
    }
  }

  /** The rows of one feed in `ORDER BY` order: newest first, ties by later id first. */
  function SortNewestFirst(s: seq<Event>): (r: seq<Event>)
    ensures multiset(r) == multiset(s)
    ensures |r| == |s|
    ensures NewestFirst(r)
    ensures DistinctIds(s) ==> StrictlyNewestFirst(r)
  {
    if |s| == 0 then []
    else
      assert s == [s[0]] + s[1..];
      InsertHeadSorted(s[0], s[1..], SortNewestFirst(s[1..]));
      Insert(s[0], SortNewestFirst(s[1..]))
  }

  /** SQLite's `LIMIT n`: the first `n` rows, all of them when `n` is negative. */
  function Limit(s: seq<Event>, n: int): (r: seq<Event>)
    ensures n >= 0 ==> |r| <= n
    ensures |r| == if n < 0 || |s| <= n then |s| else n
    ensures r <= s
  {
    if n < 0 || |s| <= n then s else s[..n]
  }

  /** How many events of `s` are strictly newer than `e`. */
  function Rank(s: seq<Event>, e: Event): nat
  {
    |set x | x in s && Older(e, x)|
  }

  /** A sequence without repeats has as many distinct elements as positions. */
  lemma {:induction false} DistinctCount<T>(s: seq<T>)
    requires forall i, j :: 0 <= i < j < |s| ==> s[i] != s[j]
    ensures |set x | x in s| == |s|
  {
    if |s| > 0 {
      var tail := s[1..];
      DistinctCount(tail);
      assert (set x | x in s) == {s[0]} + (set x | x in tail);
      assert s[0] !in (set x | x in tail);
    }
  }

  /** In a strictly newest-first listing each event sits at one position only. */
  lemma StrictPositionUnique(s: seq<Event>, i: nat, j: nat)
    requires StrictlyNewestFirst(s)
    requires i < |s| && j < |s| && s[i] == s[j]
    ensures i == j
  {
    if i != j {
      OlderIrreflexive(s[i]);
    }
  }

  /** In a strictly newest-first listing, the events newer than the one at position `i`
      are exactly those listed before it. */
  lemma NewerAreListedBefore(sorted: seq<Event>, i: nat, x: Event)
    requires StrictlyNewestFirst(sorted)
    requires i < |sorted|
    requires x in sorted
    ensures Older(sorted[i], x) <==> x in sorted[..i]
  {
    var j :| 0 <= j < |sorted| && sorted[j] == x;
    if j == i {
      OlderIrreflexive(x);
    } else if j > i {
      OlderAsymmetric(sorted[j], sorted[i]);
    } else {
      assert sorted[..i][j] == x;
    }
    if x in sorted[..i] {
      var m :| 0 <= m < i && sorted[..i][m] == x;
      StrictPositionUnique(sorted, m, j);
    }
  }

  /** In a strictly newest-first listing, an event's position counts the events newer
      than it. */
  lemma {:induction false} PositionCountsNewer(s: seq<Event>, sorted: seq<Event>, i: nat)
    requires multiset(sorted) == multiset(s)
    requires StrictlyNewestFirst(sorted)
    requires i < |sorted|
    ensures Rank(s, sorted[i]) == i
  {
    var front := sorted[..i];
    var newer := set x | x in s && Older(sorted[i], x);
    forall x | x in newer
      ensures x in front
    {
      assert x in multiset(s);
      NewerAreListedBefore(sorted, i, x);
    }
    forall x | x in front
      ensures x in newer
    {
      var j :| 0 <= j < i && front[j] == x;
      assert sorted[j] == x;
      assert x in multiset(sorted);
      NewerAreListedBefore(sorted, i, x);
    }
    assert newer == set x | x in front;
    forall a, b | 0 <= a < b < |front|
      ensures front[a] != front[b]
    {
      if front[a] == front[b] {
        StrictPositionUnique(sorted, a, b);
      }
    }
    DistinctCount(front);
  }

  /** In a strictly newest-first listing, the event at position `i` is among the first
      `k` rows exactly when `i < k`. */
  lemma InPrefixIffBefore(sorted: seq<Event>, i: nat, k: nat)
    requires StrictlyNewestFirst(sorted)
    requires i < |sorted| && k <= |sorted|
    ensures sorted[i] in sorted[..k] <==> i < k
  {
    if sorted[i] in sorted[..k] {
      var j :| 0 <= j < k && sorted[..k][j] == sorted[i];
      StrictPositionUnique(sorted, i, j);
    }
    if i < k {
      assert sorted[..k][i] == sorted[i];
    }
  }

  /** The first `k` rows of the newest-first listing are exactly the events with fewer
      than `k` newer events beside them: `LIMIT` keeps the newest `k` and no others. */
  lemma {:induction false} LimitKeepsNewest(s: seq<Event>, k: int, e: Event)
    requires DistinctIds(s)
    requires e in s
    ensures e in Limit(SortNewestFirst(s), k) <==> k < 0 || Rank(s, e) < k
  {
    var sorted := SortNewestFirst(s);
    assert e in multiset(sorted);
    var i :| 0 <= i < |sorted| && sorted[i] == e;
    PositionCountsNewer(s, sorted, i);
    if k >= 0 && k < |sorted| {
      InPrefixIffBefore(sorted, i, k);
    }
  }
}

=== FILE: json.dfy ===
/** Decoded JSON payloads and their structural fingerprint (`structure_only`). */
module JsonValues {

  /** A decoded JSON value. Objects are maps: the fingerprint is serialised with sorted
      keys, so member order never reaches it. Numbers keep only an integer value. */
  datatype Json =
    | JNull
    | JBool(b: bool)
    | JNum(n: int)
    | JStr(s: string)
    | JArr(items: seq<Json>)
    | JObj(members: map<string, Json>)

  /** `structure_only`: every mapping keeps its keys, every other value (lists
      included) becomes the empty string. */
  function Skeleton(j: Json): (r: Json)
    ensures r.JObj? <==> j.JObj?
    ensures j.JObj? ==> r.members.Keys == j.members.Keys
    ensures !j.JObj? ==> r == JStr("")
    ensures IsSkeleton(r)
    ensures SameShape(j, r)
  {
    match j
    case JObj(m) => JObj(map k | k in m :: Skeleton(m[k]))
    case _ => JStr("")
  }

  /** A value with no content left: mappings all the way down to empty-string leaves. */
  predicate IsSkeleton(j: Json)
  {
    match j
    case JObj(m) => forall k :: k in m ==> IsSkeleton(m[k])
    case JStr(s) => s == ""
    case _ => false
  }

  /** Two payloads have the same key shape: mappings at the same places with the same
      key sets, anything else (scalars, lists of any length) interchangeable. */
  predicate SameShape(a: Json, b: Json)
  {
    match a
    case JObj(m) =>
      b.JObj? && m.Keys == b.members.Keys
      && forall k :: k in m ==> SameShape(m[k], b.members[k])
    case _ => !b.JObj?
  }

  /** A skeleton is its own skeleton. */
  lemma {:induction false} SkeletonFixesSkeletons(j: Json)
    requires IsSkeleton(j)
    ensures Skeleton(j) == j
  {
    match j
    case JObj(m) =>
      forall k | k in m
        ensures Skeleton(m[k]) == m[k]
      {
        SkeletonFixesSkeletons(m[k]);
      }
      assert (map k | k in m :: Skeleton(m[k])) == m;
    case JStr(s) =>
  }

  /** `structure_only` is idempotent. */
  lemma {:induction false} SkeletonIdempotent(j: Json)
    ensures Skeleton(Skeleton(j)) == Skeleton(j)
  {
    SkeletonFixesSkeletons(Skeleton(j));
  }

  /** Payloads with equal skeletons have the same key shape. */
  lemma {:induction false} EqualSkeletonsSameShape(a: Json, b: Json)
    requires Skeleton(a) == Skeleton(b)
    ensures SameShape(a, b)
  {
    match a
    case JObj(m) =>
      var n := b.members;
      forall k | k in m
        ensures SameShape(m[k], n[k])
      {
        assert Skeleton(a).members[k] == Skeleton(b).members[k];
        EqualSkeletonsSameShape(m[k], n[k]);
      }
    case _ =>
  }

  /** Payloads of the same key shape have equal skeletons. */
  lemma {:induction false} SameShapeEqualSkeletons(a: Json, b: Json)
    requires SameShape(a, b)
    ensures Skeleton(a) == Skeleton(b)
  {
    match a
    case JObj(m) =>
      var n := b.members;
      var sa := map k | k in m :: Skeleton(m[k]);
      var sb := map k | k in n :: Skeleton(n[k]);
      forall k | k in sa
        ensures sa[k] == sb[k]
      {
        SameShapeEqualSkeletons(m[k], n[k]);
      }
      assert sa.Keys == sb.Keys;
      assert sa == sb;
    case _ =>
  }

  /** Two payloads get the same skeleton exactly when they have the same key shape. */
  lemma {:induction false} SkeletonEqualIffSameShape(a: Json, b: Json)
    ensures Skeleton(a) == Skeleton(b) <==> SameShape(a, b)
  {
    if Skeleton(a) == Skeleton(b) {
      EqualSkeletonsSameShape(a, b);
    }
    if SameShape(a, b) {
      SameShapeEqualSkeletons(a, b);
    }
  }
}

=== FILE: normalizer.dfy ===
/** `parse_handler`: dispatch a payload to the feed's parser and stamp every item it
    returns with identity, provenance and the payload's structural fingerprint. */
module Normalizer {
  import opened Wrappers
  import opened Exceptions
  import opened JsonValues
  import opened Text

  /** What a parser returns for one item: a dict of string fields, normally
      `title`, `description` and `link`. */
  type RawItem = map<string, string>

  /** A parser `parse_<feed_id>(data, feed_id)`: a list of items, or what it raised. */
  type Parser = (Json, FeedId) -> Result<seq<RawItem>, string>

  /** The parsers module's attributes by name. */
  type Registry = map<string, Parser>

  /** The opaque library calls: the hex digest of SHA-256 over the UTF-8 encoding,
      `json.dumps(x)`, and `json.dumps(x, sort_keys=True, separators=(",", ":"))`. */
  datatype Oracles = Oracles(
    sha256Hex: string -> string,
    dumps: Json -> string,
    dumpsCanonical: Json -> string)

  /** A parser item after normalisation. Only `title` was needed to build it;
      `description` and `link` are read later, by the store. */
  datatype Item = Item(
    title: string,
    description: Option<string>,
    link: Option<string>,
    pubDate: Timestamp,
    guid: string,
    isTest: Json,
    rawMsg: string,
    msgHash: string)

  /** Both the item identity and the fingerprint keep 24 hex digits. */
  const DigestPrefix: nat := 24

  /** The text `make_id` hashes. */
  function IdSource(timestamp: Timestamp, sourceName: string): string
  {
    timestamp + "-" + sourceName
  }

  /** `make_id`: the first 24 hex digits of the SHA-256 of "<timestamp>-<name>". */
  function MakeId(o: Oracles, timestamp: Timestamp, sourceName: string): (r: string)
    ensures |r| <= DigestPrefix
    ensures |o.sha256Hex(IdSource(timestamp, sourceName))| >= DigestPrefix ==> |r| == DigestPrefix
    ensures r <= o.sha256Hex(IdSource(timestamp, sourceName))
  {
    Text.Prefix(o.sha256Hex(IdSource(timestamp, sourceName)), DigestPrefix)
  }

  /** Two items stamped at the same instant with different titles feed different
      text to the hash, so their guids differ unless SHA-256 collides on the prefix. */
  lemma IdSourceInjective(timestamp: Timestamp, a: string, b: string)
    requires a != b
    ensures IdSource(timestamp, a) != IdSource(timestamp, b)
  {
    var n := |timestamp| + 1;
    assert IdSource(timestamp, a)[n..] == a;
    assert IdSource(timestamp, b)[n..] == b;
  }

  /** `hash_structure`: the first 24 hex digits of the SHA-256 of the canonical dump. */
  function HashStructure(o: Oracles, structure: Json): (r: string)
    ensures |r| <= DigestPrefix
    ensures |o.sha256Hex(o.dumpsCanonical(structure))| >= DigestPrefix ==> |r| == DigestPrefix
    ensures r <= o.sha256Hex(o.dumpsCanonical(structure))
  {
    Text.Prefix(o.sha256Hex(o.dumpsCanonical(structure)), DigestPrefix)
  }

  /** The fingerprint every item of a payload carries. */
  function Fingerprint(o: Oracles, data: Json): string
  {
    HashStructure(o, Skeleton(data))
  }

  /** Payloads of the same key shape share their fingerprint, whatever their values. */
  lemma SameShapeSameFingerprint(o: Oracles, a: Json, b: Json)
    requires SameShape(a, b)
    ensures Skeleton(a) == Skeleton(b)
    ensures Fingerprint(o, a) == Fingerprint(o, b)
  {
    SkeletonEqualIffSameShape(a, b);
  }

  const ParserPrefix := "parse_"

  /** The attribute name `get_parser` looks up: the feed id behind a fixed prefix. */
  function ParserName(feedId: FeedId): (r: string)
    ensures ParserPrefix <= r && r[|ParserPrefix|..] == feedId
  {
    ParserPrefix + feedId
  }

  /** Different feeds look up different parsers. */
  lemma ParserNameInjective(a: FeedId, b: FeedId)
    requires a != b
    ensures ParserName(a) != ParserName(b)
  {
    assert ParserName(a)[|ParserPrefix|..] == a;
    assert ParserName(b)[|ParserPrefix|..] == b;
  }

  /** The text of the ValueError raised when no parser exists. */
  function NoParserMessage(feedId: FeedId): (m: string)
    ensures Text.Contains(m, feedId)
  {
    Text.FramedContains("No parser found for feed '", feedId, "'");
    "No parser found for feed '" + feedId + "'"
  }

  /** `data.get("test", 0)` on a mapping payload. */
  function TestFlag(members: map<string, Json>): Json
  {
    if "test" in members then members["test"] else JNum(0)
  }

  function Field(raw: RawItem, key: string): Option<string>
  {
    if key in raw then Some(raw[key]) else None
  }

  /** One turn of the stamping loop: `item["title"]` raises first, then `data.get`
      raises on a payload that is not a mapping. */
  function Stamp(o: Oracles, data: Json, raw: RawItem, pubDate: Timestamp, msgHash: string): (r: Result<Item, Error>)
    ensures r.Success? <==> "title" in raw && data.JObj?
    ensures "title" !in raw ==> r == Failure(KeyError("title"))
    ensures "title" in raw && !data.JObj? ==> r.Failure? && r.error.AttributeError?
  {
    if "title" !in raw then Failure(KeyError("title"))
    else if !data.JObj? then Failure(AttributeError("'payload' object has no attribute 'get'"))
    else
      var title := raw["title"];
      Success(Item(title, Field(raw, "description"), Field(raw, "link"), pubDate,
                   MakeId(o, pubDate, title), TestFlag(data.members), o.dumps(data), msgHash))
  }

  /** What the loop promises of item `i`: the stamp fields derived from the parser's
      item `raw`, the payload and the clock reading `pubDate`. */
  predicate StampedFrom(o: Oracles, data: Json, raw: RawItem, pubDate: Timestamp, msgHash: string, item: Item)
  {
    && data.JObj?
    && "title" in raw
    && item.title == raw["title"]
    && item.description == Field(raw, "description")
    && item.link == Field(raw, "link")
    && item.pubDate == pubDate
    && item.guid == MakeId(o, pubDate, raw["title"])
    && item.isTest == TestFlag(data.members)
    && item.rawMsg == o.dumps(data)
    && item.msgHash == msgHash
  }

  /** The loop over the parser's items from index `from` on; `clock(i)` is the
      `datetime.now()` read for item `i`. One failing item fails the whole call. */
  function StampAll(o: Oracles, clock: nat -> Timestamp, data: Json, raws: seq<RawItem>,
                    msgHash: string, from: nat): (r: Result<seq<Item>, Error>)
    requires from <= |raws|
    ensures r.Success? <==> forall i :: from <= i < |raws| ==> "title" in raws[i] && data.JObj?
    ensures r.Success? ==> |r.value| == |raws| - from
    ensures r.Failure? ==> && from < |raws|
                           && (data.JObj? || "title" !in raws[from] ==> r.error == KeyError("title"))
                           && (!data.JObj? && "title" in raws[from] ==> r.error.AttributeError?)
    ensures r.Success? ==> forall i :: from <= i < |raws| ==>
              StampedFrom(o, data, raws[i], clock(i), msgHash, r.value[i - from])
    decreases |raws| - from
  {
    if from == |raws| then Success([])
    else
      match Stamp(o, data, raws[from], clock(from), msgHash)
      case Failure(e) => Failure(e)
      case Success(item) =>
        match StampAll(o, clock, data, raws, msgHash, from + 1)
        case Failure(e) => Failure(e)
        case Success(rest) => Success([item] + rest)
  }

  /** `parse_handler(data, feed_id)`. */
  function ParseHandler(o: Oracles, registry: Registry, clock: nat -> Timestamp,
                        data: Json, feedId: FeedId): (r: Result<seq<Item>, Error>)
    ensures ParserName(feedId) !in registry ==> r == Failure(ValueError(NoParserMessage(feedId)))
    ensures r.Success? ==>
              && ParserName(feedId) in registry
              && registry[ParserName(feedId)](data, feedId).Success?
              && var raws := registry[ParserName(feedId)](data, feedId).value;
              && |r.value| == |raws|
              && forall i :: 0 <= i < |raws| ==>
                   StampedFrom(o, data, raws[i], clock(i), Fingerprint(o, data), r.value[i])
    ensures ParserName(feedId) in registry ==>
              var out := registry[ParserName(feedId)](data, feedId);
              (r.Success? <==> out.Success? && forall i :: 0 <= i < |out.value| ==> "title" in out.value[i] && data.JObj?)
    ensures ParserName(feedId) in registry && registry[ParserName(feedId)](data, feedId).Failure? ==>
              r == Failure(ParserRaised(registry[ParserName(feedId)](data, feedId).error))
    ensures ParserName(feedId) in registry && registry[ParserName(feedId)](data, feedId).Success? && r.Failure? ==>
              var raws := registry[ParserName(feedId)](data, feedId).value;
              && |raws| > 0
              && (data.JObj? || "title" !in raws[0] ==> r.error == KeyError("title"))
              && (!data.JObj? && "title" in raws[0] ==> r.error.AttributeError?)
  {
    var name := ParserName(feedId);
    if name !in registry then Failure(ValueError(NoParserMessage(feedId)))
    else
      match registry[name](data, feedId)
      case Failure(raised) => Failure(ParserRaised(raised))
      case Success(raws) => StampAll(o, clock, data, raws, Fingerprint(o, data), 0)
  }

  /** Without a parser for the feed the call fails, naming the feed, and yields no items. */
  lemma UnknownFeedFails(o: Oracles, registry: Registry, clock: nat -> Timestamp, data: Json, feedId: FeedId)
    requires ParserName(feedId) !in registry
    ensures ParseHandler(o, registry, clock, data, feedId).Failure?
    ensures ParseHandler(o, registry, clock, data, feedId).error.ValueError?
    ensures Text.Contains(ParseHandler(o, registry, clock, data, feedId).error.message, feedId)
  {
  }

  /** All items of one call share the payload's fingerprint and archived text; the
      fingerprint depends on the payload's shape alone. */
  lemma {:induction false} BatchSharesProvenance(o: Oracles, registry: Registry, clock: nat -> Timestamp,
                                                 a: Json, b: Json, feedId: FeedId)
    requires ParseHandler(o, registry, clock, a, feedId).Success?
    requires ParseHandler(o, registry, clock, b, feedId).Success?
    requires SameShape(a, b)
    ensures var xs := ParseHandler(o, registry, clock, a, feedId).value;
            var ys := ParseHandler(o, registry, clock, b, feedId).value;
            && (forall i, j :: 0 <= i < |xs| && 0 <= j < |xs| ==> xs[i].msgHash == xs[j].msgHash && xs[i].rawMsg == xs[j].rawMsg)
            && (forall i, j :: 0 <= i < |xs| && 0 <= j < |ys| ==> xs[i].msgHash == ys[j].msgHash)
  {
    SameShapeSameFingerprint(o, a, b);
  }
}

=== FILE: store.dfy ===
/** The `events` table: `add_event` (insert, then prune the feed to its newest
    MAX_ITEMS rows, in one transaction) and `get_events` (the bounded listing). */
module EventStore {
  import opened Wrappers
  import opened Exceptions
  import opened JsonValues
  import opened Events
  import opened Text
  import Normalizer

  /** The table's rows in insertion order and the AUTOINCREMENT counter: the id the
      next insert receives. */
  datatype Store = Store(events: seq<Event>, nextId: nat)

  /** What a successful `add_event` leaves behind: the new table and `cur.lastrowid`. */
  datatype Inserted = Inserted(store: Store, id: nat)

  /** A freshly created table; SQLite hands out ids from 1. */
  const Empty := Store([], 1)

  /** Rows are kept in increasing id order and every id was handed out already. */
  predicate Valid(st: Store)
  {
    && AscendingIds(st.events)
    && (forall i :: 0 <= i < |st.events| ==> st.events[i].id < st.nextId)
  }

  /** The retention invariant for a MAX_ITEMS of `limit` (negative: no bound). */
  ghost predicate WithinLimit(st: Store, limit: int)
  {
    limit < 0 || forall f :: |FeedEvents(st.events, f)| <= limit
  }

  predicate AscendingIds(s: seq<Event>)
  {
    forall i, j :: 0 <= i < j < |s| ==> s[i].id < s[j].id
  }

  /** `WHERE feed_id = f`, in table order. */
  function FeedEvents(es: seq<Event>, f: FeedId): (r: seq<Event>)
    ensures forall e :: e in r <==> e in es && e.feed == f
    ensures |r| <= |es|
  {
    if |es| == 0 then []
    else
      var last := es[|es| - 1];
      FeedEvents(es[..|es| - 1], f) + (if last.feed == f then [last] else [])
  }

  /** The DELETE of `add_event`: rows of feed `f` whose id is not in `keep` go. */
  function Prune(es: seq<Event>, f: FeedId, keep: set<nat>): (r: seq<Event>)
    ensures forall e :: e in r <==> e in es && (e.feed != f || e.id in keep)
  {
    if |es| == 0 then []
    else
      var last := es[|es| - 1];
      Prune(es[..|es| - 1], f, keep) + (if last.feed != f || last.id in keep then [last] else [])
  }

  /** The sub-select `SELECT event_id ... WHERE feed_id = f ORDER BY event_pub_date DESC LIMIT n`. */
  function TopIds(feedRows: seq<Event>, limit: int): (r: set<nat>)
    ensures limit == 0 ==> r == {}
  {
    set e | e in Limit(SortNewestFirst(feedRows), limit) :: e.id
  }

  /** SQLite's INTEGER range: a Python int outside it cannot be bound. */
  const MinInteger: int := -0x8000_0000_0000_0000
  const MaxInteger: int := 0x7FFF_FFFF_FFFF_FFFF

  /** A Python int sqlite3 can bind as a statement parameter. */
  predicate SqlInteger(n: int)
  {
    MinInteger <= n <= MaxInteger
  }

  /** What sqlite3 raises for an int parameter outside SQLite's INTEGER range. */
  const Overflow: Error := OverflowError("Python int too large to convert to SQLite INTEGER")

  /** A payload value sqlite3 binds as a statement parameter: None, a bool or an int
      within 64 bits, a str. Lists and dicts have no SQLite type. */
  predicate Bindable(j: Json)
  {
    match j
    case JNull => true
    case JBool(_) => true
    case JNum(n) => SqlInteger(n)
    case JStr(_) => true
    case _ => false
  }

  /** What `execute` raises for the `is_test` value, the ninth parameter. */
  function BindError(j: Json): Error
  {
    match j
    case JNum(_) => Overflow
    case JArr(_) => ProgrammingError("Error binding parameter 9: type 'list' is not supported")
    case _ => ProgrammingError("Error binding parameter 9: type 'dict' is not supported")
  }

  /** `add_event` commits: the INSERT can run (the item has both fields it reads
      besides the stamped ones, and its test flag is a value SQLite can store), and so
      can the DELETE, whose `LIMIT` parameter is the retention bound. */
  predicate Insertable(item: Normalizer.Item, limit: int)
  {
    item.description.Some? && item.link.Some? && Bindable(item.isTest) && SqlInteger(limit)
  }

  /** The row the INSERT writes; `description` and `link` must be present. */
  function NewEvent(st: Store, f: FeedId, item: Normalizer.Item): Event
    requires item.description.Some? && item.link.Some?
  {
    Event(st.nextId, f, item.title, item.description.value, item.link.value, item.guid,
          item.pubDate, item.rawMsg, item.msgHash, item.isTest)
  }

  /** `add_event(feed_id, item, data)`. Reading `item["description"]` or `item["link"]`
      raises while the parameters are collected; a test flag SQLite cannot bind makes
      the INSERT itself raise, and a bound outside SQLite's INTEGER range makes the
      DELETE raise. Either way the transaction leaves the table as it was. */
  function AddEvent(st: Store, f: FeedId, item: Normalizer.Item, limit: int): (r: Result<Inserted, Error>)
    ensures r.Success? <==> Insertable(item, limit)
    ensures item.description.None? ==> r == Failure(KeyError("description"))
    ensures item.description.Some? && item.link.None? ==> r == Failure(KeyError("link"))
    ensures item.description.Some? && item.link.Some? && !Bindable(item.isTest) ==>
              r == Failure(BindError(item.isTest))
    ensures item.description.Some? && item.link.Some? && Bindable(item.isTest) && !SqlInteger(limit) ==>
              r == Failure(Overflow)
    ensures r.Success? ==> r.value.id == st.nextId && r.value.store.nextId == st.nextId + 1
    ensures r.Success? ==> forall e :: e in r.value.store.events ==> e in st.events || e == NewEvent(st, f, item)
  {
    if item.description.None? then Failure(KeyError("description"))
    else if item.link.None? then Failure(KeyError("link"))
    else if !Bindable(item.isTest) then Failure(BindError(item.isTest))
    else if !SqlInteger(limit) then Failure(Overflow)
    else
      var all := st.events + [NewEvent(st, f, item)];
      var kept := Prune(all, f, TopIds(FeedEvents(all, f), limit));
      Success(Inserted(Store(kept, st.nextId + 1), st.nextId))
  }

  /** `get_events(feed_id)`: the listing, or the OverflowError of binding a bound
      outside SQLite's INTEGER range. */
  function GetEvents(st: Store, f: FeedId, limit: int): (r: Result<seq<Event>, Error>)
    ensures r.Success? <==> SqlInteger(limit)
    ensures r.Failure? ==> r.error == Overflow
    ensures r.Success? ==> r.value == ListEvents(st, f, limit)
  {
    if SqlInteger(limit) then Success(ListEvents(st, f, limit)) else Failure(Overflow)
  }

  /** The rows `get_events(feed_id)` selects: the feed's rows newest first, at most
      `limit` of them. */
  function ListEvents(st: Store, f: FeedId, limit: int): (r: seq<Event>)
    ensures limit >= 0 ==> |r| <= limit
    ensures forall e :: e in r ==> e in st.events && e.feed == f
    ensures NewestFirst(r)
    ensures forall i, j :: 0 <= i < j < |r| ==> !Text.Before(r[i].pubDate, r[j].pubDate)
  {
    var rows := FeedEvents(st.events, f);
    TopOfListing(rows, limit);
    Limit(SortNewestFirst(rows), limit)
  }

  /** The first `limit` rows of the sorted listing are rows of the feed, listed newest
      first, by timestamp in particular. */
  lemma TopOfListing(rows: seq<Event>, limit: int)
    ensures var r := Limit(SortNewestFirst(rows), limit);
            && (forall e :: e in r ==> e in rows)
            && NewestFirst(r)
            && forall i, j :: 0 <= i < j < |r| ==> !Text.Before(r[i].pubDate, r[j].pubDate)
  {
    var sorted := SortNewestFirst(rows);
    var r := Limit(sorted, limit);
    forall e | e in r
      ensures e in rows
    {
      assert e in multiset(sorted);
    }
    forall i, j | 0 <= i < j < |r|
      ensures !Older(r[i], r[j])
    {
      assert r[i] == sorted[i] && r[j] == sorted[j];
    }
  }

  // ---------------------------------------------------------------------------
  // Filtering lemmas

  lemma FeedEventsAppend(es: seq<Event>, x: Event, f: FeedId)
    ensures FeedEvents(es + [x], f) == FeedEvents(es, f) + (if x.feed == f then [x] else [])
  {
    assert (es + [x])[..|es|] == es;
  }

  lemma {:induction false} FeedEventsAscending(es: seq<Event>, f: FeedId)
    requires AscendingIds(es)
    ensures AscendingIds(FeedEvents(es, f))
  {
    if |es| > 0 {
      var init := es[..|es| - 1];
      var last := es[|es| - 1];
      FeedEventsAscending(init, f);
      var front := FeedEvents(init, f);
      forall e | e in front
        ensures e.id < last.id
      {
        var i :| 0 <= i < |init| && init[i] == e;
      }
      assert forall i :: 0 <= i < |front| ==> front[i] in front;
    }
  }

  lemma {:induction false} PruneAscending(es: seq<Event>, f: FeedId, keep: set<nat>)
    requires AscendingIds(es)
    ensures AscendingIds(Prune(es, f, keep))
  {
    if |es| > 0 {
      var init := es[..|es| - 1];
      var last := es[|es| - 1];
      PruneAscending(init, f, keep);
      var front := Prune(init, f, keep);
      forall e | e in front
        ensures e.id < last.id
      {
        var i :| 0 <= i < |init| && init[i] == e;
      }
      assert forall i :: 0 <= i < |front| ==> front[i] in front;
    }
  }

  /** Pruning feed `f` leaves every other feed's rows exactly as they were. */
  lemma {:induction false} PruneOtherFeed(es: seq<Event>, f: FeedId, keep: set<nat>, g: FeedId)
    requires g != f
    ensures FeedEvents(Prune(es, f, keep), g) == FeedEvents(es, g)
  {
    if |es| > 0 {
      var init := es[..|es| - 1];
      var last := es[|es| - 1];
      PruneOtherFeed(init, f, keep, g);
      if last.feed != f || last.id in keep {
        assert Prune(es, f, keep) == Prune(init, f, keep) + [last];
        FeedEventsAppend(Prune(init, f, keep), last, g);
      } else {
        assert Prune(es, f, keep) == Prune(init, f, keep);
      }
    }
  }

  lemma AscendingDistinct(s: seq<Event>)
    requires AscendingIds(s)
    ensures DistinctIds(s)
    ensures forall i, j :: 0 <= i < j < |s| ==> s[i] != s[j]
  {
  }

  // ---------------------------------------------------------------------------
  // add_event

  /** A successful insert keeps the table well formed and hands out an id larger than
      every id already in the table. */
  lemma AddEventValid(st: Store, f: FeedId, item: Normalizer.Item, limit: int)
    requires Valid(st)
    requires Insertable(item, limit)
    ensures Valid(AddEvent(st, f, item, limit).value.store)
    ensures forall e :: e in st.events ==> e.id < AddEvent(st, f, item, limit).value.id
  {
    var all := st.events + [NewEvent(st, f, item)];
    AppendKeepsAscending(st, NewEvent(st, f, item));
    PruneAscending(all, f, TopIds(FeedEvents(all, f), limit));
  }

  /** No other feed gains or loses a row. */
  lemma AddEventOtherFeeds(st: Store, f: FeedId, item: Normalizer.Item, limit: int, g: FeedId)
    requires Insertable(item, limit)
    requires g != f
    ensures FeedEvents(AddEvent(st, f, item, limit).value.store.events, g) == FeedEvents(st.events, g)
  {
    var e := NewEvent(st, f, item);
    var all := st.events + [e];
    PruneOtherFeed(all, f, TopIds(FeedEvents(all, f), limit), g);
    FeedEventsAppend(st.events, e, g);
  }

  /** With distinct ids, an id is selected by the sub-select exactly when its row is
      among the rows the sub-select returns. */
  lemma TopIdsSelectRows(rows: seq<Event>, limit: int, x: Event)
    requires DistinctIds(rows)
    requires x in rows
    ensures x.id in TopIds(rows, limit) <==> x in Limit(SortNewestFirst(rows), limit)
  {
    var top := Limit(SortNewestFirst(rows), limit);
    if x.id in TopIds(rows, limit) {
      var y :| y in top && y.id == x.id;
      assert y in multiset(SortNewestFirst(rows));
      var i :| 0 <= i < |rows| && rows[i] == x;
      var j :| 0 <= j < |rows| && rows[j] == y;
      assert i == j;
    }
  }

  /** The rows the sub-select returns are pairwise different. */
  lemma TopRowsDistinct(rows: seq<Event>, limit: int)
    requires DistinctIds(rows)
    ensures var top := Limit(SortNewestFirst(rows), limit);
            forall a, b :: 0 <= a < b < |top| ==> top[a] != top[b]
  {
    var sorted := SortNewestFirst(rows);
    var top := Limit(sorted, limit);
    forall a, b | 0 <= a < b < |top|
      ensures top[a] != top[b]
    {
      assert top[a] == sorted[a] && top[b] == sorted[b];
      OlderIrreflexive(sorted[a]);
    }
  }

  /** Two repeat-free sequences with the same elements have the same length. */
  lemma SameElementsSameLength<T>(a: seq<T>, b: seq<T>)
    requires forall i, j :: 0 <= i < j < |a| ==> a[i] != a[j]
    requires forall i, j :: 0 <= i < j < |b| ==> b[i] != b[j]
    requires forall x :: x in a <==> x in b
    ensures |a| == |b|
  {
    DistinctCount(a);
    DistinctCount(b);
    assert (set x | x in a) == (set x | x in b);
  }

  /** The DELETE leaves feed `f` holding exactly the rows its sub-select returns. */
  lemma {:induction false} PruneKeepsTop(all: seq<Event>, f: FeedId, limit: int)
    requires AscendingIds(all)
    ensures var rows := FeedEvents(all, f);
            var after := FeedEvents(Prune(all, f, TopIds(rows, limit)), f);
            && (forall x :: x in after <==> x in Limit(SortNewestFirst(rows), limit))
            && |after| == |Limit(SortNewestFirst(rows), limit)|
  {
    var rows := FeedEvents(all, f);
    FeedEventsAscending(all, f);
    AscendingDistinct(rows);
    var top := Limit(SortNewestFirst(rows), limit);
    var keep := TopIds(rows, limit);
    var pruned := Prune(all, f, keep);
    var after := FeedEvents(pruned, f);
    forall x
      ensures x in after <==> x in top
    {
      if x in top {
        assert x in multiset(SortNewestFirst(rows));
      }
      if x in rows {
        TopIdsSelectRows(rows, limit, x);
      }
    }
    PruneAscending(all, f, keep);
    FeedEventsAscending(pruned, f);
    AscendingDistinct(after);
    TopRowsDistinct(rows, limit);
    SameElementsSameLength(after, top);
  }

  /** After the DELETE, feed `f` holds exactly its rows of rank below `limit` (all
      of them when `limit` is negative), min(limit, count) of them. */
  lemma {:induction false} PruneKeepsNewest(all: seq<Event>, f: FeedId, limit: int)
    requires AscendingIds(all)
    ensures var rows := FeedEvents(all, f);
            var after := FeedEvents(Prune(all, f, TopIds(rows, limit)), f);
            && (forall x :: x in after <==> x in rows && (limit < 0 || Rank(rows, x) < limit))
            && |after| == if limit < 0 || |rows| <= limit then |rows| else limit
  {
    var rows := FeedEvents(all, f);
    PruneKeepsTop(all, f, limit);
    FeedEventsAscending(all, f);
    AscendingDistinct(rows);
    var after := FeedEvents(Prune(all, f, TopIds(rows, limit)), f);
    forall x | x in rows
      ensures x in after <==> limit < 0 || Rank(rows, x) < limit
    {
      LimitKeepsNewest(rows, limit, x);
    }
  }

  /** Appending the row that receives the next id keeps ids ascending. */
  lemma AppendKeepsAscending(st: Store, e: Event)
    requires Valid(st)
    requires e.id == st.nextId
    ensures AscendingIds(st.events + [e])
  {
    var all := st.events + [e];
    forall i, j | 0 <= i < j < |all|
      ensures all[i].id < all[j].id
    {
      if j < |st.events| {
        assert all[i] == st.events[i] && all[j] == st.events[j];
      }
    }
  }

  /** The feed's rows after the insert are exactly the newest `limit` of its old rows
      plus the new one (all of them when `limit` is negative), and there are
      min(limit, old count + 1) of them. */
  lemma {:induction false} AddEventRetention(st: Store, f: FeedId, item: Normalizer.Item, limit: int)
    requires Valid(st)
    requires Insertable(item, limit)
    ensures var candidates := FeedEvents(st.events, f) + [NewEvent(st, f, item)];
            var after := FeedEvents(AddEvent(st, f, item, limit).value.store.events, f);
            && (forall e :: e in after <==> e in candidates && (limit < 0 || Rank(candidates, e) < limit))
            && |after| == if limit < 0 || |candidates| <= limit then |candidates| else limit
  {
    var e := NewEvent(st, f, item);
    var all := st.events + [e];
    FeedEventsAppend(st.events, e, f);
    assert FeedEvents(all, f) == FeedEvents(st.events, f) + [e];
    assert AddEvent(st, f, item, limit).value.store.events == Prune(all, f, TopIds(FeedEvents(all, f), limit));
    AppendKeepsAscending(st, e);
    PruneKeepsNewest(all, f, limit);
  }

  /** A row whose timestamp is not earlier than any stored row of its feed has no
      newer candidate: its rank is zero. */
  lemma NewRowRanksFirst(st: Store, f: FeedId, item: Normalizer.Item)
    requires Valid(st)
    requires item.description.Some? && item.link.Some?
    requires forall e :: e in st.events && e.feed == f ==> !Text.Before(item.pubDate, e.pubDate)
    ensures Rank(FeedEvents(st.events, f) + [NewEvent(st, f, item)], NewEvent(st, f, item)) == 0
  {
    var e := NewEvent(st, f, item);
    var candidates := FeedEvents(st.events, f) + [e];
    assert (set x | x in candidates && Older(e, x)) == {} by {
      forall x | x in candidates
        ensures !Older(e, x)
      {
        if x == e {
          OlderIrreflexive(e);
        } else {
          assert x in st.events && x.feed == f;
          var i :| 0 <= i < |st.events| && st.events[i] == x;
          assert x.id < e.id;
          assert !Text.Before(e.pubDate, x.pubDate);
        }
      }
    }
  }

  /** When the new row's timestamp is not earlier than any stored row of its feed and
      `limit` is at least one, the insert survives its own prune. */
  lemma AddEventKeepsNewest(st: Store, f: FeedId, item: Normalizer.Item, limit: int)
    requires Valid(st)
    requires Insertable(item, limit)
    requires limit >= 1
    requires forall e :: e in st.events && e.feed == f ==> !Text.Before(item.pubDate, e.pubDate)
    ensures NewEvent(st, f, item) in AddEvent(st, f, item, limit).value.store.events
  {
    NewRowRanksFirst(st, f, item);
    AddEventRetention(st, f, item, limit);
  }

  /** Every insert keeps every feed within `limit` rows. */
  lemma AddEventWithinLimit(st: Store, f: FeedId, item: Normalizer.Item, limit: int)
    requires Valid(st)
    requires WithinLimit(st, limit)
    requires Insertable(item, limit)
    ensures WithinLimit(AddEvent(st, f, item, limit).value.store, limit)
  {
    if limit >= 0 {
      var after := AddEvent(st, f, item, limit).value.store;
      forall g
        ensures |FeedEvents(after.events, g)| <= limit
      {
        if g == f {
          AddEventRetention(st, f, item, limit);
        } else {
          AddEventOtherFeeds(st, f, item, limit, g);
        }
      }
    }
  }

  // ---------------------------------------------------------------------------
  // get_events

  /** The listing holds exactly the feed's newest `limit` rows (by the same order the
      prune uses); when the store keeps the retention invariant, that is all of them. */
  lemma ListEventsNewest(st: Store, f: FeedId, limit: int, e: Event)
    requires Valid(st)
    ensures e in ListEvents(st, f, limit) <==>
              e in FeedEvents(st.events, f) && (limit < 0 || Rank(FeedEvents(st.events, f), e) < limit)
  {
    var rows := FeedEvents(st.events, f);
    FeedEventsAscending(st.events, f);
    AscendingDistinct(rows);
    if e in rows {
      LimitKeepsNewest(rows, limit, e);
    }
  }

  lemma ListEventsComplete(st: Store, f: FeedId, limit: int)
    requires WithinLimit(st, limit)
    ensures multiset(ListEvents(st, f, limit)) == multiset(FeedEvents(st.events, f))
  {
  }
}

/** A worked instance of retention: with MAX_ITEMS = 2, three inserts with rising
    timestamps leave the last two, listed newest first. */
module RetentionExample {
  import opened Wrappers
  import opened JsonValues
  import opened Events
  import opened EventStore
  import Normalizer

  function ItemAt(title: string, pubDate: string): Normalizer.Item
  {
    Normalizer.Item(title, Some(""), Some(""), pubDate, title, JNum(0), "", "")
  }

  function Row(id: nat, title: string, pubDate: string): Event
  {
    Event(id, "f", title, "", "", title, pubDate, "", "", JNum(0))
  }

  /** The store a successful insert commits, spelled out. */
  lemma Committed(st: Store, item: Normalizer.Item)
    requires Insertable(item, 2)
    ensures var all := st.events + [NewEvent(st, "f", item)];
            AddEvent(st, "f", item, 2).value.store == Store(Prune(all, "f", TopIds(FeedEvents(all, "f"), 2)), st.nextId + 1)
  {
  }

  lemma FirstInsert()
    ensures AddEvent(Empty, "f", ItemAt("A", "1"), 2).value.store == Store([Row(1, "A", "1")], 2)
  {
    var eA := Row(1, "A", "1");
    assert FeedEvents([eA], "f") == [eA];
    assert SortNewestFirst([eA]) == [eA];
    assert TopIds([eA], 2) == {1};
    assert Prune([eA], "f", {1}) == [eA];
  }

  lemma TwoRows(x: Event, y: Event)
    requires x.feed == "f" && y.feed == "f" && Older(x, y)
    ensures FeedEvents([x, y], "f") == [x, y]
    ensures SortNewestFirst([x, y]) == [y, x]
    ensures Prune([x, y], "f", {x.id, y.id}) == [x, y]
  {
    assert [x, y][..1] == [x];
    assert [x, y][1..] == [y];
    assert [x][..0] == [];
    assert Prune([x], "f", {x.id, y.id}) == [x];
    assert Prune([x, y], "f", {x.id, y.id}) == Prune([x], "f", {x.id, y.id}) + [y];
  }

  lemma SecondInsert()
    ensures AddEvent(Store([Row(1, "A", "1")], 2), "f", ItemAt("B", "2"), 2).value.store
            == Store([Row(1, "A", "1"), Row(2, "B", "2")], 3)
  {
    var eA := Row(1, "A", "1");
    var eB := Row(2, "B", "2");
    Rising();
    var st := Store([eA], 2);
    var all := [eA, eB];
    assert NewEvent(st, "f", ItemAt("B", "2")) == eB;
    assert st.events + [eB] == all;
    var keep := TopIds(FeedEvents(all, "f"), 2);
    Committed(st, ItemAt("B", "2"));
    TwoRows(eA, eB);
    TopBothOfTwo(all, eA, eB);
    assert keep == {eA.id, eB.id};
  }

  lemma ThreeRows(x: Event, y: Event, z: Event)
    requires x.feed == "f" && y.feed == "f" && z.feed == "f"
    requires x.id != y.id && x.id != z.id
    ensures FeedEvents([x, y, z], "f") == [x, y, z]
    ensures Prune([x, y, z], "f", {z.id, y.id}) == [y, z]
  {
    var all := [x, y, z];
    var keep := {z.id, y.id};
    assert all[..2] == [x, y] && [x, y][..1] == [x] && [x][..0] == [];
    assert Prune([x], "f", keep) == [];
    assert Prune([x, y], "f", keep) == Prune([x], "f", keep) + [y];
    assert Prune(all, "f", keep) == Prune([x, y], "f", keep) + [z];
  }

  lemma SortThree(x: Event, y: Event, z: Event)
    requires Older(x, y) && Older(y, z) && Older(x, z)
    ensures SortNewestFirst([x, y, z]) == [z, y, x]
  {
    assert [x, y, z][1..] == [y, z];
    assert [y, z][1..] == [z];
    assert SortNewestFirst([y, z]) == [z, y];
    assert [z, y][1..] == [y];
    assert Insert(x, [y]) == [y, x];
    assert Insert(x, [z, y]) == [z, y, x];
  }

  lemma Rising()
    ensures Older(Row(1, "A", "1"), Row(2, "B", "2"))
    ensures Older(Row(2, "B", "2"), Row(3, "C", "3"))
    ensures Older(Row(1, "A", "1"), Row(3, "C", "3"))
  {
  }

  lemma IdsOfTopTwo(z: Event, y: Event, x: Event)
    ensures (set e | e in Limit([z, y, x], 2) :: e.id) == {z.id, y.id}
  {
    assert Limit([z, y, x], 2) == [z, y] by {
      assert [z, y, x][..2] == [z, y];
    }
    assert z in [z, y] && y in [z, y];
  }

  lemma TopOfSorted(rows: seq<Event>, limit: int, sorted: seq<Event>)
    requires SortNewestFirst(rows) == sorted
    ensures TopIds(rows, limit) == set e | e in Limit(sorted, limit) :: e.id
  {
  }

  lemma IdsOfBoth(y: Event, x: Event)
    ensures (set e | e in Limit([y, x], 2) :: e.id) == {x.id, y.id}
  {
    assert y in [y, x] && x in [y, x];
  }

  lemma TopBothOfTwo(rows: seq<Event>, x: Event, y: Event)
    requires SortNewestFirst(rows) == [y, x]
    ensures TopIds(rows, 2) == {x.id, y.id}
  {
    TopOfSorted(rows, 2, [y, x]);
    IdsOfBoth(y, x);
  }

  lemma TopTwoOfThree(rows: seq<Event>, x: Event, y: Event, z: Event)
    requires SortNewestFirst(rows) == [z, y, x]
    ensures TopIds(rows, 2) == {z.id, y.id}
  {
    TopOfSorted(rows, 2, [z, y, x]);
    IdsOfTopTwo(z, y, x);
  }

  lemma ThirdInsert()
    ensures AddEvent(Store([Row(1, "A", "1"), Row(2, "B", "2")], 3), "f", ItemAt("C", "3"), 2).value.store
            == Store([Row(2, "B", "2"), Row(3, "C", "3")], 4)
  {
    var eA := Row(1, "A", "1");
    var eB := Row(2, "B", "2");
    var eC := Row(3, "C", "3");
    Rising();
    var st := Store([eA, eB], 3);
    var all := [eA, eB, eC];
    assert NewEvent(st, "f", ItemAt("C", "3")) == eC;
    assert st.events + [eC] == all;
    var keep := TopIds(FeedEvents(all, "f"), 2);
    Committed(st, ItemAt("C", "3"));
    ThreeRows(eA, eB, eC);
    SortThree(eA, eB, eC);
    TopTwoOfThree(all, eA, eB, eC);
    assert keep == {3, 2};
  }

  /** With MAX_ITEMS = 2, inserting A, B, C for one feed at rising timestamps leaves
      B and C, and the listing is [C, B]. */
  lemma ThreeInsertsKeepTwo()
    ensures var a := AddEvent(Empty, "f", ItemAt("A", "1"), 2).value.store;
            var b := AddEvent(a, "f", ItemAt("B", "2"), 2).value.store;
            var c := AddEvent(b, "f", ItemAt("C", "3"), 2).value.store;
            ListEvents(c, "f", 2) == [Row(3, "C", "3"), Row(2, "B", "2")]
  {
    FirstInsert();
    SecondInsert();
    ThirdInsert();
    var eB := Row(2, "B", "2");
    var eC := Row(3, "C", "3");
    assert Older(eB, eC);
    TwoRows(eB, eC);
  }
}

=== FILE: text.dfy ===
/** Strings as the store sees them: ordered character by character, as SQLite's
    BINARY collation orders UTF-8 TEXT (code-point order), and cut by Python's `s[:n]`. */
module Text {

  /** A feed's key: the `<feed_id>` of the routes, the key of the definitions file,
      the `feed_id` column, and the suffix of the parser's name. */
  type FeedId = string

  /** An ISO-8601 timestamp as `datetime.isoformat()` writes it; the tables compare
      them as text, with `Before`. */
  type Timestamp = string

  /** `a` sorts strictly before `b`: the first differing character is smaller, or
      `a` is a proper prefix of `b`. */
  predicate Before(a: string, b: string)
    decreases |a|
  {
    if |a| == 0 then |b| > 0
    else if |b| == 0 then false
    else a[0] < b[0] || (a[0] == b[0] && Before(a[1..], b[1..]))
  }

  lemma {:induction false} BeforeIrreflexive(a: string)
    ensures !Before(a, a)
    decreases |a|
  {
    if |a| > 0 {
      BeforeIrreflexive(a[1..]);
    }
  }

  lemma {:induction false} BeforeAsymmetric(a: string, b: string)
    requires Before(a, b)
    ensures !Before(b, a)
    decreases |a|
  {
    if |a| > 0 && |b| > 0 && a[0] == b[0] {
      BeforeAsymmetric(a[1..], b[1..]);
    }
  }

  lemma {:induction false} BeforeTransitive(a: string, b: string, c: string)
    requires Before(a, b) && Before(b, c)
    ensures Before(a, c)
    decreases |a|
  {
    if |a| > 0 && a[0] == b[0] && b[0] == c[0] {
      BeforeTransitive(a[1..], b[1..], c[1..]);
    }
  }

  /** Any two strings are equal or ordered one way: the order is total. */
  lemma {:induction false} BeforeTotal(a: string, b: string)
    ensures a == b || Before(a, b) || Before(b, a)
    decreases |a|
  {
    if |a| > 0 && |b| > 0 && a[0] == b[0] {
      BeforeTotal(a[1..], b[1..]);
      if a[1..] == b[1..] {
        assert a == [a[0]] + a[1..] && b == [b[0]] + b[1..];
      }
    }
  }

  /** Python's `s[:n]` for a non-negative `n`. */
  function Prefix(s: string, n: nat): (r: string)
    ensures |r| == if |s| < n then |s| else n
    ensures r <= s
  {
    if |s| <= n then s else s[..n]
  }

  /** `part` occurs in `s` starting at index `at`. */
  predicate OccursAt(s: string, part: string, at: nat)
  {
    at + |part| <= |s| && s[at..at + |part|] == part
  }

  /** Python's `part in s`. */
  predicate Contains(s: string, part: string)
  {
    exists at: nat | at <= |s| :: OccursAt(s, part, at)
  }

  /** A string framed by a prefix and a suffix contains what was framed. */
  lemma {:induction false} FramedContains(prefix: string, part: string, suffix: string)
    ensures Contains(prefix + part + suffix, part)
  {
    var s := prefix + part + suffix;
    assert s[|prefix|..|prefix| + |part|] == part;
    assert OccursAt(s, part, |prefix|);
  }
}

=== FILE: webhook.dfy ===
/** The body of the `/webhook/<feed_id>` route: normalise the payload, then insert
    the items one by one, each `add_event` its own transaction. */
module Webhook {
  import opened Wrappers
  import opened Exceptions
  import opened Text
  import opened JsonValues
  import opened Normalizer
  import opened EventStore

  /** The exception `add_event` raises for an item it rejects: `description` is read
      first, then `link`, then the INSERT binds the test flag, then the DELETE binds
      the retention bound. */
  function RejectionOf(item: Item, limit: int): Error
  {
    if item.description.None? then KeyError("description")
    else if item.link.None? then KeyError("link")
    else if !Bindable(item.isTest) then BindError(item.isTest)
    else Overflow
  }

  /** `add_event` accepts each of the first `n` items. */
  predicate InsertablePrefix(items: seq<Item>, n: nat, limit: int)
    requires n <= |items|
  {
    n == 0 || (InsertablePrefix(items, n - 1, limit) && Insertable(items[n - 1], limit))
  }

  /** The recursive prefix predicate says what its name says, item by item. */
  lemma {:induction false} InsertablePrefixAll(items: seq<Item>, n: nat, limit: int)
    requires n <= |items|
    ensures InsertablePrefix(items, n, limit) <==> forall k :: 0 <= k < n ==> Insertable(items[k], limit)
  {
    if n > 0 {
      InsertablePrefixAll(items, n - 1, limit);
    }
  }

  /** Item `k` is the first one `add_event` rejects: the ones before it are insertable. */
  predicate FirstRejected(items: seq<Item>, k: nat, limit: int)
  {
    && k < |items|
    && !Insertable(items[k], limit)
    && InsertablePrefix(items, k, limit)
  }

  /** The table after `add_event` of each of the first `n` items in turn, every call
      committed. */
  function InsertEach(st: Store, items: seq<Item>, n: nat, f: FeedId, limit: int): (r: Store)
    requires n <= |items|
    requires InsertablePrefix(items, n, limit)
    ensures r.nextId == st.nextId + n
  {
    if n == 0 then st
    else AddEvent(InsertEach(st, items, n - 1, f, limit), f, items[n - 1], limit).value.store
  }

  /** What the ingestion loop keeps about table `cur` relative to the table `st` it
      started from: the store invariant, ids only grow, the per-feed bound if it held,
      and other feeds' rows untouched. */
  ghost predicate KeepsFrom(st: Store, cur: Store, f: FeedId, limit: int)
  {
    && Valid(cur)
    && (forall e :: e in st.events ==> e.id < cur.nextId)
    && (WithinLimit(st, limit) ==> WithinLimit(cur, limit))
    && (forall g :: g != f ==> FeedEvents(cur.events, g) == FeedEvents(st.events, g))
  }

  /** One successful `add_event` keeps what the loop of `InsertAll` relies on. */
  lemma InsertKeepsLoopFacts(st: Store, cur: Store, f: FeedId, item: Item, limit: int)
    requires KeepsFrom(st, cur, f, limit)
    requires Insertable(item, limit)
    ensures KeepsFrom(st, AddEvent(cur, f, item, limit).value.store, f, limit)
  {
    AddEventValid(cur, f, item, limit);
    if WithinLimit(st, limit) {
      AddEventWithinLimit(cur, f, item, limit);
    }
    var next := AddEvent(cur, f, item, limit).value.store;
    forall g | g != f
      ensures FeedEvents(next.events, g) == FeedEvents(st.events, g)
    {
      AddEventOtherFeeds(cur, f, item, limit, g);
    }
  }

  /** One call of the loop body on the table committed so far and one item: the
      table it commits, or the exception it raises. */
  type Step = (Store, Item) -> Result<Store, Error>

  /** The first `n` calls of `step` in turn, starting from table `st`: the table after
      them, or the exception of the first call that raises, after which no call is
      made. */
  function Run(step: Step, st: Store, items: seq<Item>, n: nat): (r: Result<Store, Error>)
    requires n <= |items|
    ensures r.Success? ==> forall j :: 0 <= j < n ==> Run(step, st, items, j).Success?
  {
    if n == 0 then Success(st)
    else
      match Run(step, st, items, n - 1)
      case Failure(e) => Failure(e)
      case Success(cur) => step(cur, items[n - 1])
  }

  /** The loop of `webhook(feed_id)`: `step` on each item in order until the first call
      that raises. `k` calls committed, ending at table `after`; `rejected` is the
      exception of the call after them, if the loop did not run to the end. */
  method RunUntilRejected(step: Step, st: Store, items: seq<Item>)
    returns (after: Store, k: nat, rejected: Option<Error>)
    ensures k <= |items|
    ensures Run(step, st, items, k) == Success(after)
    ensures rejected.None? <==> k == |items|
    ensures rejected.Some? ==> step(after, items[k]) == Failure(rejected.value)
  {
    after := st;
    k := 0;
    rejected := None;
    while k < |items|
      invariant k <= |items|
      invariant rejected.None?
      invariant Run(step, st, items, k) == Success(after)
    {
      var outcome := step(after, items[k]);
      if outcome.Failure? {
        rejected := Some(outcome.error);
        break;
      }
      after := outcome.value;
      k := k + 1;
    }
  }

  /** A property of the table that every committing call of `step` keeps holds after
      any run of the loop that commits. */
  lemma {:induction false} RunPreserves(step: Step, inv: Store -> bool, st: Store, items: seq<Item>, n: nat)
    requires n <= |items|
    requires inv(st)
    requires forall cur, item :: inv(cur) && step(cur, item).Success? ==> inv(step(cur, item).value)
    ensures Run(step, st, items, n).Success? ==> inv(Run(step, st, items, n).value)
  {
    if n > 0 {
      RunPreserves(step, inv, st, items, n - 1);
    }
  }

  /** One `add_event` call of the loop, on the table `cur` the earlier calls committed:
      the table it commits, or the exception it raises. */
  function Commit(cur: Store, f: FeedId, item: Item, limit: int): (r: Result<Store, Error>)
    ensures r.Success? <==> Insertable(item, limit)
    ensures r.Success? ==> r.value == AddEvent(cur, f, item, limit).value.store
    ensures r.Failure? ==> r.error == RejectionOf(item, limit)
  {
    match AddEvent(cur, f, item, limit)
    case Success(inserted) => Success(inserted.store)
    case Failure(e) => Failure(e)
  }

  /** The loop body of `webhook(feed_id)` for feed `f`: `add_event` with the configured
      retention bound. */
  function CommitTo(f: FeedId, limit: int): Step
  {
    (cur: Store, item: Item) => Commit(cur, f, item, limit)
  }

  /** Running `add_event` on the first `n` items commits all of them exactly when each
      is insertable, and then ends at the left fold `InsertEach`. */
  lemma {:induction false} RunCommitTo(st: Store, items: seq<Item>, n: nat, f: FeedId, limit: int)
    requires n <= |items|
    ensures Run(CommitTo(f, limit), st, items, n).Success? <==> InsertablePrefix(items, n, limit)
    ensures InsertablePrefix(items, n, limit) ==>
              Run(CommitTo(f, limit), st, items, n).value == InsertEach(st, items, n, f, limit)
  {
    if n > 0 {
      RunCommitTo(st, items, n - 1, f, limit);
    }
  }

  /** Committing the items one by one keeps what `InsertKeepsLoopFacts` keeps for one. */
  lemma InsertEachKeeps(st: Store, items: seq<Item>, n: nat, f: FeedId, limit: int)
    requires Valid(st)
    requires n <= |items|
    requires InsertablePrefix(items, n, limit)
    ensures KeepsFrom(st, InsertEach(st, items, n, f, limit), f, limit)
  {
    var inv := (cur: Store) => KeepsFrom(st, cur, f, limit);
    forall cur, item | inv(cur) && CommitTo(f, limit)(cur, item).Success?
      ensures inv(CommitTo(f, limit)(cur, item).value)
    {
      InsertKeepsLoopFacts(st, cur, f, item, limit);
    }
    RunPreserves(CommitTo(f, limit), inv, st, items, n);
    RunCommitTo(st, items, n, f, limit);
  }

  /** The titles of the items, in order: the reply of a payload that went in whole. */
  function Titles(items: seq<Item>): (r: seq<string>)
    ensures |r| == |items|
    ensures forall k :: 0 <= k < |items| ==> r[k] == items[k].title
  {
    if |items| == 0 then [] else Titles(items[..|items| - 1]) + [items[|items| - 1].title]
  }

  /** `webhook(feed_id)` after normalisation: the titles of the items when every
      `add_event` commits, otherwise the exception of the first one that raises, the
      items before it staying committed. */
  method InsertAll(st: Store, items: seq<Item>, feedId: FeedId, limit: int)
    returns (after: Store, answer: Result<seq<string>, Error>)
    ensures answer.Success? <==> forall k :: 0 <= k < |items| ==> Insertable(items[k], limit)
    ensures answer.Success? ==>
              && InsertablePrefix(items, |items|, limit)
              && after == InsertEach(st, items, |items|, feedId, limit)
              && answer.value == Titles(items)
    ensures answer.Failure? ==>
              exists k: nat {:trigger FirstRejected(items, k, limit)} :: && FirstRejected(items, k, limit)
                          && after == InsertEach(st, items, k, feedId, limit)
                          && answer.error == RejectionOf(items[k], limit)
  {
    var k, rejected;
    after, k, rejected := RunUntilRejected(CommitTo(feedId, limit), st, items);
    RunCommitTo(st, items, k, feedId, limit);
    InsertablePrefixAll(items, k, limit);
    if rejected.Some? {
      assert FirstRejected(items, k, limit);
      return after, Failure(rejected.value);
    }
    answer := Success(Titles(items));
  }

  /** Every item of a payload carries the payload's `test` value. When SQLite cannot
      bind it, `add_event` rejects every item, so the loop stops at the first one and
      commits nothing. */
  lemma UnbindableTestRejectsAll(o: Oracles, registry: Registry, clock: nat -> Timestamp,
                                 data: Json, feedId: FeedId, limit: int)
    requires ParseHandler(o, registry, clock, data, feedId).Success?
    requires data.JObj? && !Bindable(TestFlag(data.members))
    ensures var items := ParseHandler(o, registry, clock, data, feedId).value;
            && (forall k :: 0 <= k < |items| ==> !Insertable(items[k], limit))
            && (|items| > 0 ==> FirstRejected(items, 0, limit))
  {
  }

  /** A retention bound outside SQLite's INTEGER range makes every `add_event` fail
      at the DELETE, so the loop stops at the first item and commits nothing. */
  lemma OverflowingBoundRejectsAll(items: seq<Item>, limit: int)
    requires !SqlInteger(limit)
    ensures forall k :: 0 <= k < |items| ==> !Insertable(items[k], limit)
    ensures |items| > 0 ==> FirstRejected(items, 0, limit)
    ensures forall k :: 0 <= k < |items| ==>
              (items[k].description.Some? && items[k].link.Some? && Bindable(items[k].isTest) ==>
                 RejectionOf(items[k], limit) == Overflow)
  {
  }

  /** `webhook(feed_id)`: the new table and the reply, the items' titles or the error
      that became the 400 response. A payload the normaliser rejects changes nothing;
      otherwise the items are committed one by one up to the first one `add_event`
      rejects. */
  method Ingest(st: Store, o: Oracles, registry: Registry, clock: nat -> Timestamp,
                data: Json, feedId: FeedId, limit: int)
    returns (after: Store, answer: Result<seq<string>, Error>)
    ensures ParseHandler(o, registry, clock, data, feedId).Failure? ==>
              after == st && answer == Failure(ParseHandler(o, registry, clock, data, feedId).error)
    ensures ParseHandler(o, registry, clock, data, feedId).Success? ==>
              var items := ParseHandler(o, registry, clock, data, feedId).value;
              && (answer.Success? <==> forall k :: 0 <= k < |items| ==> Insertable(items[k], limit))
              && (answer.Success? ==> InsertablePrefix(items, |items|, limit)
                                      && after == InsertEach(st, items, |items|, feedId, limit)
                                      && answer.value == Titles(items))
              && (answer.Failure? ==>
                    exists k: nat {:trigger FirstRejected(items, k, limit)} :: && FirstRejected(items, k, limit)
                                && after == InsertEach(st, items, k, feedId, limit)
                                && answer.error == RejectionOf(items[k], limit))
  {
    var parsed := ParseHandler(o, registry, clock, data, feedId);
    if parsed.Failure? {
      return st, Failure(parsed.error);
    }
    after, answer := InsertAll(st, parsed.value, feedId, limit);
  }
}
